=== FILE: README.md ===
# goscp: a Dafny model of the scp client

goscp is a small scp client written in Go. It comes in two programs that
share most of their text:

- `src/cmd/goscp/main.go` (the "cmd" program): password callback, `-ls` listing, io.CopyN on pulls.
- the older top-level `main.go` (the "root" program): a `cred` record that caches one password, a read buffer sized by the control line on pulls, and the `writeProgress`/`readProgress` wrappers of `progressIO.go`.

This project models the core that decides what goscp does and what it
puts on the wire:

- **HostLocation** (`location.dfy`) models `parseFileHostLocation`. It does this through a faithful model of `strings.Split` (`gostrings.dfy`). It proves how an argument is split into user, host and path, and that well-formed arguments round-trip.
- **Dispatch** (`dispatch.dfy`) holds the decisions `main` makes:
  - which login the destination connection uses;
  - which source arguments are pulled, pushed or rejected;
  - how each connection answers password questions (`SOURCE_PORT` is always 22).
- **Scp** (`scp.dfy`) holds the parts of the scp control protocol that both programs share:
  - the `C0644 <size> <name>\n` control line and the stream a push writes;
  - how the size field is read back with `strings.Split` and `strconv.ParseInt` (`strconv.dfy`, `filepath.dfy`).
- **CmdGoscp** and **RootGoscp** (`cmd_goscp.dfy`, `root_goscp.dfy`) hold each program's `main` (as `Run`), its push goroutine (`SendFile`) and its pull goroutine (`GetFile`). Each is an imperative method over the pipe objects of **Streams**. The pull is specified by a function `Pull` of the remote command's output; the push is specified by `PushStream`, truncated to what the far end reads. RootGoscp also holds the `cred` record (`Cred.Password`) and a value model of a series of its calls (`Replies`).
- **Progress** (`progress.dfy`) holds the `writeProgress` and `readProgress` wrappers, over a progress counter.
- **Variants** (`variants.dfy`) compares the two programs' pulls on the same input.

The remote side and the local disk are modelled as objects:

- A `Writer` is the stdin pipe of `scp -t`/`scp -f`. It takes bytes until the far end stops reading after `capacity` bytes; after that a write is short and reports an error.
- A `Reader` is the buffered stdout of the remote command, holding everything it sends.
- A `LocalFile` is the file a pull creates.

The decisions that depend on the environment are parameters:

- the flag values and whether the destination path is a directory are inputs of `CmdGoscp.Run` and `RootGoscp.Run`;
- the answer a terminal prompt would give is `typed` of `RootGoscp.Cred.Password` (and of `RootGoscp.Answer`);
- the source file's content, or its absence, is `source` of `CmdGoscp.SendFile` and `RootGoscp.SendFile`.

## Model

| member | source | states |
|---|---|---|
| GoStrings.Split | src/cmd/goscp/main.go:22 | strings.Split yields one piece more than there are separators, and no piece holds the separator |
| GoStrings.SplitJoin | src/cmd/goscp/main.go:22 | joining the pieces with the separator gives back the string |
| GoStrings.SplitOnce | src/cmd/goscp/main.go:25 | with exactly one separator the pieces are the text before and after it |
| GoStrings.SplitFirst | src/cmd/goscp/main.go:27 | the first piece is the text before the first separator, or the whole string when there is none |
| GoStrings.SplitAfterPiece | src/cmd/goscp/main.go:243 | a leading piece without the separator is split off on its own |
| GoStrings.Index | src/cmd/goscp/main.go:22 | the position of the first occurrence, -1 exactly when there is none |
| GoStrings.Count | src/cmd/goscp/main.go:23 | the number of occurrences, zero exactly when the byte is absent |
| Strconv.Decimal | src/cmd/goscp/main.go:191 | the decimal text of a size is nonempty and all digits |
| Strconv.ParseInt | src/cmd/goscp/main.go:244 | ParseInt base 10 into 64 bits: the value lies in int64 range; a syntax error gives 0; a range error gives -2^63 for a leading minus sign and 2^63-1 otherwise |
| Strconv.ScanDigits | src/cmd/goscp/main.go:244 | the digit scan succeeds only on all-digit text, with a value of at most 2^64-1; a syntax error means some byte is not a digit |
| Strconv.ParseUint | src/cmd/goscp/main.go:244 | the unsigned scan that ParseInt uses: at most 2^64-1, which it gives on overflow; 0 on a syntax error |
| Strconv.ScanDecimal | src/cmd/goscp/main.go:244 | scanning the decimal text of n gives n back |
| Strconv.ParseDecimal | src/cmd/goscp/main.go:244 | ParseInt reads the printed size back without error, for every size up to 2^63-1 |
| Strconv.DecimalHasNoSeparator | src/cmd/goscp/main.go:191 | the printed size holds no space, no newline and no sign |
| FilePath.Base | src/cmd/goscp/main.go:191 | filepath.Base is never empty and holds no slash unless it is "/" |
| FilePath.TrimTrailingSlashes | src/cmd/goscp/main.go:191 | the path with all of its trailing slashes removed: a prefix that does not end in a slash, and every byte cut off is a slash |
| FilePath.AfterLastSlash | src/cmd/goscp/main.go:191 | the longest suffix without a slash: it is the whole path or follows a slash |
| FilePath.TrimSlashesAfterName | src/cmd/goscp/main.go:191 | trimming a name that ends in a non-slash followed by slashes gives the name |
| FilePath.AfterSlashIsName | src/cmd/goscp/main.go:191 | the text after the last slash of dir + "/" + name is the name |
| FilePath.BaseIsLastElement | src/cmd/goscp/main.go:191 | filepath.Base(dir + "/" + name + trailing slashes) is the name |
| FilePath.BaseOfName | src/cmd/goscp/main.go:191 | a plain file name is its own base |
| HostLocation.ParseFileHostLocation | src/cmd/goscp/main.go:20-34 | the user holds no '@' and the host holds no ':' |
| HostLocation.ParseByPosition | src/cmd/goscp/main.go:20-34 | parsing by splits equals the reading by separator positions on every argument |
| HostLocation.PositionsRebuild | src/cmd/goscp/main.go:20-34 | the positional reading of a user@host:path argument rebuilds it |
| HostLocation.ParseRoundTrip | src/cmd/goscp/main.go:20-34 | with one '@' and one ':' after it, user + "@" + host + ":" + path is the argument |
| HostLocation.ParseRoundTripNoUser | src/cmd/goscp/main.go:26-32 | without '@' and with one ':', the user is empty and host + ":" + path is the argument |
| HostLocation.ParseFallback | src/cmd/goscp/main.go:29-33 | when the ':'-split does not give two pieces, the host is empty and the path is the whole argument, while a user before a single '@' is still taken |
| HostLocation.ParseSeveralAts | src/cmd/goscp/main.go:23-28 | with two or more '@' there is no user, and host:path is the text before the first '@' (or the whole argument is the path) |
| HostLocation.ParseEmptyHost | src/cmd/goscp/main.go:29-32 | ":path" gives an empty host with only the text after the colon as path, so the argument counts as local |
| HostLocation.AtSplitByPosition | src/cmd/goscp/main.go:22-28 | the '@'-split yields the user and the text split on ':' next |
| HostLocation.ColonSplitByPosition | src/cmd/goscp/main.go:29-32 | the ':'-split has two pieces exactly when there is one ':', lying either side of it |
| Dispatch.EffectiveUser | src/cmd/goscp/main.go:65-79 | the login fails exactly on a -l / user@ mismatch or when neither is given, with the matching usage error; otherwise it is whichever was given |
| Dispatch.SourceAuth | src/cmd/goscp/main.go:97 | the cmd program answers a source host with its -pw closure; the root program with a fresh cred record for the source's user and host that holds no password |
| Dispatch.Route | src/cmd/goscp/main.go:94-113 | a source with user and host is dialled (its user and host, port 22, the variant's auth) and then rejected exactly when the destination is remote, or else pulled into the destination path, joined with the remote path when that is a directory; every other source is pushed under its original spelling with the -limit value |
| Dispatch.Transfers | src/cmd/goscp/main.go:94-114 | the sources are routed in order; the run stops at the first rejected one and returns the connection dialled for it, and every transfer before it matches its route |
| Scp.ControlLine | src/cmd/goscp/main.go:191 | the control line starts with 'C' and ends with a newline |
| Scp.SizeField | src/cmd/goscp/main.go:243-244 | a size is read exactly when the line has a space, and it lies in int64 range |
| Scp.ControlLineSize | src/cmd/goscp/main.go:243-244 | the size field of a control line the program prints reads back as that size |
| Scp.MalformedSizeIsZero | src/cmd/goscp/main.go:243-244 | a second field that is not a number reads as size 0 (the ParseInt error is dropped), whether or not a name follows it |
| Scp.SecondField | src/cmd/goscp/main.go:243 | the second piece of the space-split line is the text between the first space and the next space or the end |
| Scp.FirstField | src/cmd/goscp/main.go:243 | the first piece of the split is the text before a space, or all of it |
| Scp.ControlLineWithoutNameIsEmpty | src/cmd/goscp/main.go:243-244 | a "C0644 <size>\n" line without a name reads as size 0, since the newline stays in the second field |
| Scp.ControlLineIsOneLine | src/cmd/goscp/main.go:241 | ReadString('\n') on a push stream returns exactly the control line |
| Scp.DeliveredContent | src/cmd/goscp/main.go:191-209 | how many file bytes reach the far end: all of a nonempty file exactly when control line and file fit in what it reads |
| Scp.PushStream | src/cmd/goscp/main.go:191-208 | the push stream starts with the control line's 'C', holds the file's bytes right after the control line and ends with one NUL |
| Scp.PushPieces | src/cmd/goscp/main.go:191-204 | writing control line, file and NUL one after another delivers a prefix of the whole push stream |
| Scp.Refuse | src/cmd/goscp/main.go:258 | a first line that is not a control line is answered with a second NUL, sent once that line has been read |
| Streams.Take | src/cmd/goscp/main.go:204 | what a pipe delivers of a write is a prefix no longer than the room left |
| Streams.TakeAppend | src/cmd/goscp/main.go:202-204 | two writes in a row deliver what one write of both would |
| Streams.LineOf | src/cmd/goscp/main.go:241 | the line up to and including the delimiter, or everything when there is none |
| Streams.LineOfFirstLine | src/cmd/goscp/main.go:241 | the first line of a stream whose first delimiter follows `first` is `first` plus the delimiter |
| Streams.Writer.Write | src/cmd/goscp/main.go:233 | a closed pipe takes nothing; otherwise as much as still fits is delivered, and a short write reports an error; each write records how far the remote output had been read when it was sent |
| Streams.Writer.Close | src/cmd/goscp/main.go:209 | the pipe is closed and what was delivered stays |
| Streams.Reader.Read | src/cmd/goscp/main.go:256 | the next bytes, as many as fit, land in the buffer; nothing else changes; an empty stream reports EOF |
| Streams.Reader.Close | progressIO.go:43-47 | the stream is closed, nothing more is consumed, and its close error is returned |
| Streams.Reader.ReadString | src/cmd/goscp/main.go:241 | bufio ReadString: returns the first line and consumes it, and errors exactly when there is no delimiter |
| Streams.LocalFile.Create | src/cmd/goscp/main.go:237 | os.Create leaves the file empty |
| Streams.LocalFile.Write | main.go:207 | the bytes are appended to the file |
| Streams.ReadFull | main.go:202 | io.ReadFull fills as much of the buffer as the stream holds; the error is none, EOF or UnexpectedEOF as the count says |
| Streams.CopyN | src/cmd/goscp/main.go:250 | io.CopyN copies max(0, min(limit, available)) bytes into the file, and errors exactly when that is less than the limit |
| Progress.ProgressBar.constructor | main.go:158 | pb.StartNew(size): a bar for that total, counting from zero, not finished |
| Progress.ProgressBar.Add | progressIO.go:19 | the counter grows by n |
| Progress.ProgressBar.Finish | progressIO.go:26 | the bar is finished and its counter kept |
| Progress.WriteProgress.constructor | progressWriter.go:11-15 | the wrapper holds the writer, the bar and the start time it was given |
| Progress.WriteProgress.Write | progressIO.go:17-22 | the embedded writer's effect and result are passed through unchanged; the counter grows by len(p) even on a short write; the embedded writer's acknowledgement mark is recorded as for a direct write |
| Progress.WriteProgress.Close | progressIO.go:24-28 | the bar is finished, then the embedded writer is closed and its error returned; the marks are unchanged |
| Progress.ReadProgress.constructor | progressIO.go:30-34 | the wrapper holds the reader, the bar and the start time it was given |
| Progress.ReadProgress.Read | progressIO.go:36-41 | the embedded reader's effect and result are passed through unchanged; the counter grows by len(p) even on a short read or at EOF |
| Progress.ReadProgress.Close | progressIO.go:43-47 | the bar is finished, then the embedded reader is closed and its error returned |
| CmdGoscp.Pull | src/cmd/goscp/main.go:233-258 | at most the input is consumed; the ready NUL and one more NUL are always sent; the pull completes exactly when a third NUL is sent and fails short exactly when 2 is sent |
| CmdGoscp.Accept | src/cmd/goscp/main.go:242-257 | after the control line, the file is always a prefix of what follows, and it is empty when the program panics |
| CmdGoscp.PullReceivesPush | src/cmd/goscp/main.go:233-258 | pulling what a push sends, the empty file included, stores the pushed bytes exactly and consumes the stream up to its NUL |
| CmdGoscp.AcceptBody | src/cmd/goscp/main.go:242-258 | after a control line announcing the content's size, the content followed by its NUL is received exactly, the NUL consumed, whatever comes after |
| CmdGoscp.PullWithoutControlRecord | src/cmd/goscp/main.go:241-258 | a first line not starting with 'C' is answered with a second NUL, leaves the file empty and consumes only that line |
| CmdGoscp.PullShortRead | src/cmd/goscp/main.go:250-253 | when fewer bytes arrive than announced, 2 is sent and the file keeps the partial bytes |
| CmdGoscp.PullNonPositiveSize | src/cmd/goscp/main.go:250-258 | a size of zero or less completes with an empty file and consumes at most the terminator |
| CmdGoscp.PullAccepts | src/cmd/goscp/main.go:241 | a complete first line starting with 'C' leads into the control-line branch |
| CmdGoscp.PullRefuses | src/cmd/goscp/main.go:241 | any other first line ends the pull |
| CmdGoscp.GetFile | src/cmd/goscp/main.go:233-258 | the pull goroutine sends, stores and consumes exactly what Pull of the remote output says; the ready NUL goes out before anything is read, the second ack right after the first line, and the last ack after everything the pull consumes; the pipe stays open |
| CmdGoscp.AnswerFirstLine | src/cmd/goscp/main.go:241-258 | after the ready NUL, the first line is read and the pull goes on as Pull says; the next answer goes out right after that line, the last after everything consumed |
| CmdGoscp.Receive | src/cmd/goscp/main.go:242-250 | after the control line it does what Accept says, and a line with no second field panics after the ack; the ack goes out before the body is read |
| CmdGoscp.CopyBody | src/cmd/goscp/main.go:250-258 | a short copy sends 2 and keeps the partial file; otherwise the file is the announced bytes, the terminator is consumed and the final NUL sent; the one answer goes out after all of it is read |
| CmdGoscp.CopyToMultiWriter | src/cmd/goscp/main.go:197-202 | the pipe receives the file up to its room; the bar counts all of a file that fits, and otherwise only whole chunks written before the short one |
| CmdGoscp.CopyWithBar | src/cmd/goscp/main.go:193-203 | a nonempty file goes through MultiWriter to the pipe up to its room, and the finished bar shows all of it when it fits, otherwise the whole chunks before the short write |
| CmdGoscp.SendFile | src/cmd/goscp/main.go:181-210 | a file that opens is sent as control line, content and NUL, truncated to what the far end reads, and the pipe is closed; nothing is sent when the file cannot be opened |
| CmdGoscp.Push | src/cmd/goscp/main.go:191-210 | the pipe receives control line + file + NUL up to its room, including for the empty file, and is closed |
| CmdGoscp.Run | src/cmd/goscp/main.go:45-119 | the usage errors, the -ls panic on no arguments, the destination connection and its password callback, the listing, the transfers in argument order up to the first rejected source, and the connection dialled for that source; nothing is dialled or listed on the too-few-arguments and panic exits |
| RootGoscp.Answer | main.go:26-35 | cred.Password prompts exactly for the owner with no password held; it fails exactly for another user; it keeps a typed answer and returns what it holds |
| RootGoscp.Replies | main.go:26-35 | one reply per password question, each record state carried to the next |
| RootGoscp.Prompts | main.go:28-29 | the number of prompts is at most the number of questions |
| RootGoscp.PresetNeverPrompts | main.go:31-32 | with a preset (-pw) password the terminal is never asked, and the preset is what is held and returned |
| RootGoscp.PromptsAtMostOnce | main.go:27-30 | when every typed answer is nonempty, the terminal is asked at most once, and never once a password is held |
| RootGoscp.EmptyAnswersPromptEveryTime | main.go:27-30 | an empty typed answer is not kept, so every question for the owner prompts again |
| RootGoscp.Cred.constructor | main.go:22-24 | the record holds the user, host and password it was built with |
| RootGoscp.Cred.Password | main.go:26-35 | each call answers as Answer says and leaves the record holding Answer's cache |
| RootGoscp.Pull | main.go:188-210 | at most the input is consumed; two NULs are always sent; completion and failure as the third ack says; the file is empty unless the pull completes |
| RootGoscp.Accept | main.go:197-209 | the file is empty unless the pull completes, and then it is a nonempty prefix of what follows the control line |
| RootGoscp.PullReceivesPush | main.go:188-210 | pulling what a push of a nonempty file sends stores the pushed bytes exactly and consumes the stream up to its NUL |
| RootGoscp.AcceptBody | main.go:197-210 | after a control line announcing a nonempty content's size, the content followed by its NUL is received exactly, the NUL consumed, whatever comes after |
| RootGoscp.PullOfEmptyFileCrashes | main.go:200-208 | pulling a pushed empty file acknowledges the control line and then panics, leaving the file empty |
| RootGoscp.PullWithoutControlRecord | main.go:196-210 | a first line not starting with 'C' is answered with a second NUL, leaves the file empty and consumes only that line |
| RootGoscp.PullShortRead | main.go:201-205 | when fewer bytes arrive than announced, 2 is sent and the file stays empty |
| RootGoscp.PullAccepts | main.go:196 | a complete first line starting with 'C' leads into the control-line branch |
| RootGoscp.PullRefuses | main.go:196 | any other first line ends the pull |
| RootGoscp.GetFile | main.go:188-210 | the pull goroutine sends, stores and consumes exactly what Pull of the remote output says; the ready NUL goes out before anything is read, the second ack right after the first line, and the last ack after everything the pull consumes; the pipe stays open |
| RootGoscp.AnswerFirstLine | main.go:196-210 | after the ready NUL, the first line is read and the pull goes on as Pull says; the next answer goes out right after that line, the last after everything consumed |
| RootGoscp.Receive | main.go:197-201 | after the control line it does what Accept says; a missing or negative size panics after the ack; the ack goes out before the body is read |
| RootGoscp.ReadBody | main.go:201-209 | a short read sends 2 and writes nothing; a zero size panics at buf[:1]; otherwise the file is the announced bytes, one terminator byte is consumed and the final NUL sent; an answer goes out only after all of it is read |
| RootGoscp.CopyToProgress | main.go:163 | the pipe receives the file up to its room; the bar counts all of a file that fits and, after a short write, more than was delivered but at most one chunk more |
| RootGoscp.SendFile | main.go:148-165 | a file that opens is sent as control line, content and NUL, truncated to what the far end reads, and the pipe is closed; nothing is sent when the file cannot be opened |
| RootGoscp.Push | main.go:157-165 | the pipe receives control line + file + NUL up to its room and is closed through writeProgress.Close |
| RootGoscp.Run | main.go:61-124 | the usage errors, the destination connection and its cred record, the transfers in argument order up to the first rejected source, and the connection dialled for that source; no listing, no panic; nothing is dialled and nothing transferred on the too-few-arguments exit |
| Variants.RootReceivedCmdAgrees | main.go:196-210 | whatever the root program receives, the cmd program receives identically |
| Variants.CmdReceivedRootDiffersOnlyWhenEmpty | main.go:200-208 | a file the cmd program receives is lost by the root program only when it is empty, and then the root program panics |
| Variants.RefusalsAgree | main.go:196 | both programs refuse the same first lines, with the same acks and consumption |
| Variants.ShortReadsAgree | main.go:202-205 | both programs detect the same short reads and answer them alike; only the local file differs |

## Left out

- SSH itself is not modelled: connecting, `ssh.Dial`, sessions, the keyboard-interactive `kic` callback and `session.Run` of `scp -t`/`scp -f`. A connection is the `Dial` record `main` would open, including the one opened for a source that is then rejected (`Invocation.rejectedDial`); the remote command is the `Writer`/`Reader` pair.
- Goroutines are not modelled: each goroutine's body is a sequential method.
- `log.Fatalln` on a failed dial, session, pipe or stat stops the program; the model leaves these paths out. An unopenable push source is modelled as `None`; `os.Create` is assumed to succeed.
- Terminal prompting (gopass) is not modelled. What the terminal would answer is a parameter (`typed`).
- The cmd program's password closure is recorded as `PasswordCallback(preset)`; what it returns is not evaluated.
- The rate limiters (`flowrate`, `flowcontrol`) are not modelled: they pass bytes through unchanged.
- `-limit` is carried in `Send` but has no effect, and the two programs' defaults (0 and 10240) are flag values given as input.
- Progress bar rendering, the speed display, the average-rate message in `Close`, and all console output are not modelled (including the size printed after a short read and the "Program completed." line). A bar is its counter and a finished flag.
- The cmd program's pull copies from `io.MultiReader(sr, bar)` (src/cmd/goscp/main.go:249). What the progress bar yields as a reader once `sr` runs dry is defined in the pb library, which is not part of this model. The copy reads from `sr` alone, so running out of input before the announced size is a short read.
- The os.Stat of the destination is the `targetIsDir` input, and `filepath.Join(dir, name)` is recorded as `Joined` rather than cleaned.
- `displayListing` (the `ls -al` run for `-ls`) is recorded as `Invocation.listing`, the path that would be listed. When the destination has no host, the cmd program dials nothing and runs the listing on the nil client; that panic is not modelled.
- CmdGoscp.Run, RootGoscp.Run: an `Invocation` records what `main` dispatches (connections, listing, transfers in order, exit), not how each transfer ends. `Completed` means every source was dispatched, not that every transfer ran: a pull that ends in `Crashed` (a Go panic) ends the whole process, and the transfers after it never start. Each transfer's outcome is given by `GetFile`/`SendFile` and their specification functions.
- Acknowledgement order is recorded as ghost marks on the `Writer` (how far the remote output had been read at each write); the time the remote side takes to answer is not modelled.
- A push whose destination has no host is routed to `sendFileToRemoteHost` with the nil connection, as in the source. The nil-pointer panic that follows is not modelled.
- CmdGoscp.CopyToMultiWriter, RootGoscp.CopyToProgress: io.Copy's reads of the source file are assumed to return full 32 KiB buffers (the last one shorter), so the bar counts are exact only under that assumption.
- A file too large to allocate (`make([]byte, size)` for a huge announced size) and Go's `int` conversion of the size for the bar are not modelled; sizes are unbounded integers.
- `progressWriter.go` defines `writeProgress` with the same text as `progressIO.go`. It is modelled once, in `Progress.WriteProgress`.
- `parseFileHostLocation` has the same text in both programs (main.go:37-51), so it is modelled once.
- Bytes are modelled as bytes: no UTF-8 handling is needed, and file names are taken as given.

## Findings

| source | as written | input that shows it | evidently intended | confidence | as-written member | corrected member |
|---|---|---|---|---|---|---|
| main.go:201-208 | a pull allocates `make([]byte, size)` and then reads the terminator into `buf[:1]`, which is out of range when the announced size is 0 | `scp -f` sending `C0644 0 name\n` followed by a NUL: the control line is acknowledged, then the program panics | an empty file is received: the file is created empty, the terminator is consumed and the final NUL is sent, as the later src/cmd/goscp/main.go does with io.CopyN | high, not executed | RootGoscp.PullOfEmptyFileCrashes | CmdGoscp.PullReceivesPush |

=== FILE: cmd_goscp.dfy ===
/**
 * src/cmd/goscp/main.go: the newer program. A pull copies the file with
 * io.CopyN straight into the local file; a push sends an empty file by a
 * separate branch and counts progress through io.MultiWriter; `-ls` shows
 * a remote listing instead of transferring.
 */
module CmdGoscp {
  import opened Wrappers
  import opened GoStrings
  import opened Strconv
  import opened FilePath
  import opened HostLocation
  import opened Dispatch
  import opened Streams
  import opened Progress
  import opened Scp

  /**
   * What getFileFromRemoteHost does with the bytes `input` that `scp -f`
   * sends: a first line that is complete and starts with 'C' is a control
   * line and is accepted; any other ends the pull at once.
   */
  function Pull(input: seq<byte>): (r: PullRun)
    ensures r.consumed <= |input|
    ensures |r.acks| >= 2 && r.acks[..2] == [NUL, NUL]
    ensures r.status == Received <==> r.acks == [NUL, NUL, NUL]
    ensures r.status == ShortRead <==> r.acks == [NUL, NUL, FATAL]
    ensures r.status == NoControlRecord ==> r.file == []
  {
    var line := LineOf(input, NEWLINE);
    if NEWLINE !in input || line[0] != LETTER_C then
      PullRun([NUL, NUL], [], |line|, NoControlRecord)
    else
      var run := Accept(line, input[|line|..]);
      run.(consumed := |line| + run.consumed)
  }

  /**
   * The pull after the control line `line` has been read, `rest` being the
   * bytes behind it; `consumed` counts bytes of `rest`. A line with no
   * second field panics after the ack; io.CopyN copies nothing for a size
   * of zero or less.
   */
  function Accept(line: GoString, rest: seq<byte>): (r: PullRun)
    ensures r.consumed <= |rest|
    ensures |r.acks| >= 2 && r.acks[..2] == [NUL, NUL]
    ensures r.status == Received <==> r.acks == [NUL, NUL, NUL]
    ensures r.status == ShortRead <==> r.acks == [NUL, NUL, FATAL]
    ensures r.status == Crashed ==> r.file == []
    ensures r.file <= rest
  {
    match SizeField(line)
    case None => PullRun([NUL, NUL], [], 0, Crashed)
    case Some(size) =>
      if size > |rest| then PullRun([NUL, NUL, FATAL], rest, |rest|, ShortRead)
      else
        var n := Max(0, size);
        PullRun([NUL, NUL, NUL], rest[..n], n + Min(1, |rest| - n), Received)
  }

  /**
   * A pull of what a push sends receives the pushed bytes exactly, the
   * empty file included, and consumes the whole stream up to its NUL.
   */
  lemma PullReceivesPush(name: GoString, content: seq<byte>, after: seq<byte>)
    requires NEWLINE !in name && |content| <= MAX_INT64
    ensures Pull(PushStream(name, content) + after)
      == PullRun([NUL, NUL, NUL], content, |PushStream(name, content)|, Received)
  {
    var line := ControlLine(|content|, name);
    var input := PushStream(name, content) + after;
    var rest := content + [NUL] + after;
    assert input == line + rest;
    ControlLineIsOneLine(|content|, name, rest);
    ControlLineSize(|content|, name);
    assert input[|line|..] == rest;
    AcceptBody(line, content, after);
    PullAccepts(input, line, rest);
  }

  /** After a control line announcing |content| bytes, the content, its NUL and anything after are received. */
  lemma AcceptBody(line: GoString, content: seq<byte>, after: seq<byte>)
    requires SizeField(line) == Some(|content|)
    ensures Accept(line, content + [NUL] + after) == PullRun([NUL, NUL, NUL], content, |content| + 1, Received)
  {
    assert (content + [NUL] + after)[..|content|] == content;
  }

  /**
   * A first line that does not start with 'C' ends the pull: the ready NUL
   * and a final NUL are sent, the file stays empty, and only that line is
   * consumed.
   */
  lemma PullWithoutControlRecord(first: seq<byte>, rest: seq<byte>)
    requires NEWLINE !in first && (first == [] || first[0] != LETTER_C)
    ensures Pull(first + [NEWLINE] + rest) == PullRun([NUL, NUL], [], |first| + 1, NoControlRecord)
  {
    LineOfFirstLine(first, NEWLINE, rest);
  }

  /**
   * When `scp -f` stops before `size` bytes, the pull answers 2, keeps the
   * bytes it did copy in the local file, and sends no final NUL.
   */
  lemma PullShortRead(name: GoString, size: nat, partial: seq<byte>)
    requires NEWLINE !in name && |partial| < size <= MAX_INT64
    ensures Pull(ControlLine(size, name) + partial)
      == PullRun([NUL, NUL, FATAL], partial, |ControlLine(size, name)| + |partial|, ShortRead)
  {
    var line := ControlLine(size, name);
    ControlLineIsOneLine(size, name, partial);
    ControlLineSize(size, name);
    assert (line + partial)[|line|..] == partial;
  }

  /**
   * A size field that reads as zero or less is a zero-byte file: the pull
   * completes, the file stays empty, and one more byte (the terminator) is
   * consumed when there is one.
   */
  lemma PullNonPositiveSize(input: seq<byte>)
    requires NEWLINE in input && LineOf(input, NEWLINE)[0] == LETTER_C
    requires SizeField(LineOf(input, NEWLINE)).Some? && SizeField(LineOf(input, NEWLINE)).value <= 0
    ensures var line := LineOf(input, NEWLINE);
      Pull(input) == PullRun([NUL, NUL, NUL], [], |line| + Min(1, |input| - |line|), Received)
  {
  }

  /**
   * getFileFromRemoteHost once its pipes are open: `sr` is the buffered
   * output of `scp -f`, `iw` its input, `file` the local file.
   */
  method GetFile(sr: Reader, iw: Writer, file: LocalFile) returns (status: PullStatus)
    requires sr.Valid() && iw.Valid() && iw.written == [] && !iw.closed
    requires iw.peer == sr && iw.marks == []
    modifies sr, iw, file
    ensures sr.Valid() && iw.Valid() && !iw.closed && sr.closed == old(sr.closed)
    ensures var run := Pull(old(sr.Unread()));
      && status == run.status
      && iw.written == Take(run.acks, iw.capacity)
      && file.content == run.file
      && sr.pos == old(sr.pos) + run.consumed
    ensures |iw.marks| >= 2 && iw.marks[0] == old(sr.pos) && iw.marks[1] == old(sr.pos) + |LineOf(old(sr.Unread()), NEWLINE)|
    ensures |iw.marks| == (if status == Received || status == ShortRead then 3 else 2)
    ensures |iw.marks| == 3 ==> iw.marks[2] == sr.pos
  {
    var _, _ := iw.Write([NUL]);
    file.Create();
    status := AnswerFirstLine(sr, iw, file);
  }

  /**
   * The pull once the ready NUL is out and the local file exists: read the
   * first line, then acknowledge and receive a control line or refuse any
   * other line.
   */
  method AnswerFirstLine(sr: Reader, iw: Writer, file: LocalFile) returns (status: PullStatus)
    requires sr.Valid() && iw.Valid() && iw.written == Take([NUL], iw.capacity) && !iw.closed
    requires file.content == [] && iw.peer == sr
    modifies sr, iw, file
    ensures sr.Valid() && iw.Valid() && !iw.closed && sr.closed == old(sr.closed)
    ensures var run := Pull(old(sr.Unread()));
      && status == run.status
      && iw.written == Take(run.acks, iw.capacity)
      && file.content == run.file
      && sr.pos == old(sr.pos) + run.consumed
    ensures iw.marks == old(iw.marks) + [old(sr.pos) + |LineOf(old(sr.Unread()), NEWLINE)|]
      + (if status == Received || status == ShortRead then [sr.pos] else [])
  {
    ghost var input := sr.Unread();
    var line, err := sr.ReadString(NEWLINE);
    ghost var acked := iw.marks + [sr.pos];
    assert sr.pos == old(sr.pos) + |LineOf(input, NEWLINE)|;
    if err == None && |line| > 0 && line[0] == LETTER_C {
      ghost var rest := sr.Unread();
      PullAccepts(input, line, rest);
      status := Receive(sr, iw, file, line);
      assert iw.marks == acked + (if status == Received || status == ShortRead then [sr.pos] else []);
    } else {
      PullRefuses(input, line);
      status := Refuse(iw);
      assert iw.marks == acked;
    }
  }

  /** A complete first line that starts with 'C' is accepted as the control line. */
  lemma PullAccepts(input: seq<byte>, line: GoString, rest: seq<byte>)
    requires NEWLINE in input && line == LineOf(input, NEWLINE) && rest == input[|line|..]
    requires |line| > 0 && line[0] == LETTER_C
    ensures var run := Accept(line, rest); Pull(input) == run.(consumed := |line| + run.consumed)
  {
  }

  /** Any other first line ends the pull. */
  lemma PullRefuses(input: seq<byte>, line: GoString)
    requires line == LineOf(input, NEWLINE)
    requires NEWLINE !in input || |line| == 0 || line[0] != LETTER_C
    ensures Pull(input) == PullRun([NUL, NUL], [], |line|, NoControlRecord)
  {
  }

  /**
   * The rest of a pull once a control line has been read: acknowledge it
   * and take the size from it; a line with no second field panics.
   */
  method Receive(sr: Reader, iw: Writer, file: LocalFile, line: GoString) returns (status: PullStatus)
    requires sr.Valid() && iw.Valid() && iw.written == Take([NUL], iw.capacity) && !iw.closed
    requires file.content == [] && iw.peer == sr
    modifies sr, iw, file
    ensures sr.Valid() && iw.Valid() && !iw.closed && sr.closed == old(sr.closed)
    ensures var run := Accept(line, old(sr.Unread()));
      && status == run.status
      && iw.written == Take(run.acks, iw.capacity)
      && file.content == run.file
      && sr.pos == old(sr.pos) + run.consumed
    ensures iw.marks == old(iw.marks) + [old(sr.pos)]
      + (if status == Received || status == ShortRead then [sr.pos] else [])
  {
    var _, _ := iw.Write([NUL]);
    TakeAppend([NUL], [NUL], iw.capacity);
    var size := SizeField(line);
    if size.None? {
      return Crashed;
    }
    status := CopyBody(sr, iw, file, size.value);
  }

  /**
   * Copy `size` bytes into the file with io.CopyN, then answer 2 on a short
   * read, or read the terminator and send the final NUL.
   */
  method CopyBody(sr: Reader, iw: Writer, file: LocalFile, size: int) returns (status: PullStatus)
    requires sr.Valid() && iw.Valid() && iw.written == Take([NUL, NUL], iw.capacity) && !iw.closed
    requires file.content == [] && iw.peer == sr
    modifies sr, iw, file
    ensures sr.Valid() && iw.Valid() && !iw.closed && sr.closed == old(sr.closed)
    ensures iw.marks == old(iw.marks) + [sr.pos]
    ensures var rest := old(sr.Unread());
      && (size > |rest| ==>
           status == ShortRead && iw.written == Take([NUL, NUL, FATAL], iw.capacity)
           && file.content == rest && sr.pos == old(sr.pos) + |rest|)
      && (size <= |rest| ==>
           var n := Max(0, size);
           && status == Received && iw.written == Take([NUL, NUL, NUL], iw.capacity)
           && file.content == rest[..n] && sr.pos == old(sr.pos) + n + Min(1, |rest| - n))
  {
    var n, copyErr := CopyN(file, sr, size);
    if copyErr != None || n < size {
      var _, _ := iw.Write([FATAL]);
      TakeAppend([NUL, NUL], [FATAL], iw.capacity);
      return ShortRead;
    }
    var terminator := new byte[1];
    var _, _ := sr.Read(terminator, 0, 1);
    var _, _ := iw.Write([NUL]);
    TakeAppend([NUL, NUL], [NUL], iw.capacity);
    status := Received;
  }

  /**
   * io.Copy(io.MultiWriter(w, bar), src) over a source file whose reads
   * return full buffers: each chunk goes to the pipe first and reaches the
   * bar only when the pipe took all of it; the first short write ends the
   * copy.
   */
  method CopyToMultiWriter(content: seq<byte>, iw: Writer, bar: ProgressBar)
    requires iw.Valid() && !iw.closed
    modifies iw, bar
    ensures iw.Valid() && !iw.closed
    ensures var room := iw.capacity - |old(iw.written)|;
      && iw.written == old(iw.written) + Take(content, room)
      && bar.finished == old(bar.finished)
      && var counted := bar.current - old(bar.current);
         && 0 <= counted
         && (|content| <= room ==> counted == |content|)
         && (room < |content| ==> counted <= room < counted + COPY_BUFFER)
  {
    ghost var start := iw.written;
    ghost var room := iw.capacity - |start|;
    var off := 0;
    while off < |content|
      invariant iw.Valid() && !iw.closed
      invariant off <= |content| && off <= room
      invariant iw.written == start + content[..off]
      invariant bar.current == old(bar.current) + off && bar.finished == old(bar.finished)
    {
      var end := Min(off + COPY_BUFFER, |content|);
      var n, err := iw.Write(content[off..end]);
      TakeChunk(content, off, end, room);
      AfterDelivered(start, content[..off], Take(content[off..end], room - off));
      if err != None {
        assert room < end;
        return;
      }
      bar.Add(end - off);
      off := end;
    }
    assert content[..off] == content;
  }

  /**
   * The goroutine of sendFileToRemoteHost: `source` is the content of the
   * local file, or None when it cannot be opened or stat'ed, where
   * log.Fatalln ends the program before anything is sent. Returns whether
   * the file was sent and what the progress bar counted.
   */
  method SendFile(source: Option<seq<byte>>, sourceFile: GoString, iw: Writer) returns (sent: bool, counted: int)
    requires iw.Valid() && iw.written == [] && !iw.closed
    modifies iw
    ensures iw.Valid()
    ensures sent <==> source.Some?
    ensures !sent ==> iw.written == [] && !iw.closed && counted == 0
    ensures sent ==>
      var content := source.value;
      var name := Base(sourceFile);
      var delivered := DeliveredContent(name, content, iw.capacity);
      && iw.closed
      && iw.written == Take(PushStream(name, content), iw.capacity)
      && (delivered == |content| ==> counted == |content|)
      && (delivered < |content| ==> 0 <= counted <= delivered < counted + COPY_BUFFER)
  {
    if source.None? {
      return false, 0;
    }
    var content := source.value;
    var name := Base(sourceFile);
    var line := ControlLine(|content|, name);
    counted := Push(line, content, iw);
    sent := true;
  }

  /**
   * The copy of a nonempty file through io.MultiWriter(w, bar) with a fresh
   * bar for its size, finished afterwards; `counted` is what the bar shows.
   */
  method CopyWithBar(content: seq<byte>, iw: Writer) returns (counted: int)
    requires iw.Valid() && !iw.closed
    modifies iw
    ensures iw.Valid() && !iw.closed
    ensures var room := iw.capacity - |old(iw.written)|;
      && iw.written == old(iw.written) + Take(content, room)
      && 0 <= counted
      && (|content| <= room ==> counted == |content|)
      && (room < |content| ==> counted <= room < counted + COPY_BUFFER)
  {
    var bar := new ProgressBar(|content|);
    CopyToMultiWriter(content, iw, bar);
    bar.Finish();
    counted := bar.current;
  }

  /**
   * The writes of a push once the source is open: the control line, the
   * content (skipped, with its progress bar, when the file is empty), the
   * NUL terminator, then Close.
   */
  method Push(line: GoString, content: seq<byte>, iw: Writer) returns (counted: int)
    requires iw.Valid() && iw.written == [] && !iw.closed
    modifies iw
    ensures iw.Valid() && iw.closed
    ensures iw.written == Take(line + content + [NUL], iw.capacity)
    ensures var room := Max(0, iw.capacity - |line|);
      && (|content| <= room ==> counted == |content|)
      && (room < |content| ==> 0 <= counted <= room < counted + COPY_BUFFER)
  {
    PushPieces(line, content, iw.capacity);
    var _, _ := iw.Write(line);
    assert iw.capacity - |iw.written| == Max(0, iw.capacity - |line|);
    if |content| > 0 {
      counted := CopyWithBar(content, iw);
      var _, _ := iw.Write([NUL]);
      var _ := iw.Close();
    } else {
      counted := 0;
      var _, _ := iw.Write([NUL]);
      assert Take(content, iw.capacity - |Take(line, iw.capacity)|) == [];
      var _ := iw.Close();
    }
  }

  /**
   * `main` after flag parsing: `args` are the positional arguments,
   * `listing` the -ls flag, `targetIsDir` what os.Stat says of the
   * destination path. With -ls and no argument at all, indexing the last
   * argument panics.
   */
  method Run(flags: Flags, listing: bool, args: seq<GoString>, targetIsDir: bool) returns (r: Invocation)
    ensures r.exit == Usage(TooFewArguments) <==> |args| < 2 && !listing
    ensures r.exit == Panicked <==> listing && args == []
    ensures |args| >= 2 || (listing && |args| == 1) ==>
      var target := ParseFileHostLocation(args[|args| - 1]);
      var user := EffectiveUser(target.user, flags.login);
      && (r.exit in {Usage(UserMismatch), Usage(NoUser)} <==> target.host != [] && user.Failure?)
      && (target.host != [] && user.Failure? ==> r.exit == Usage(user.error))
      && (r.targetDial.Some? <==> target.host != [] && user.Success?)
      && (r.targetDial.Some? ==>
            r.targetDial.value == Dial(user.value, target.host, flags.port, PasswordCallback(flags.password)))
      && (r.exit == ListingShown <==> listing && (target.host == [] || user.Success?))
      && (r.listing.Some? ==> r.listing.value == target.path)
      && |r.transfers| < |args|
      && (forall i :: 0 <= i < |r.transfers| ==>
            Route(Cmd, args[i], target, targetIsDir, flags) == Proceed(r.transfers[i]))
      && (r.exit == Completed ==> |r.transfers| == |args| - 1)
      && (r.exit == Usage(BothRemote) ==>
            && |r.transfers| < |args| - 1 && r.rejectedDial.Some?
            && Route(Cmd, args[|r.transfers|], target, targetIsDir, flags) == Rejected(r.rejectedDial.value))
    ensures r.listing.Some? <==> r.exit == ListingShown
    ensures r.transfers != [] ==> !listing && r.exit in {Completed, Usage(BothRemote)}
    ensures r.rejectedDial.Some? <==> r.exit == Usage(BothRemote)
    ensures r.exit in {Usage(TooFewArguments), Panicked} ==> r.targetDial.None? && r.listing.None?
  {
    if |args| < 2 && !listing {
      return Invocation(None, None, [], None, Usage(TooFewArguments));
    }
    if |args| == 0 {
      return Invocation(None, None, [], None, Panicked);
    }
    var target := ParseFileHostLocation(args[|args| - 1]);
    var login := flags.login;
    var targetDial: Option<Dial> := None;
    if target.host != [] {
      if target.user != [] && login != [] && target.user != login {
        return Invocation(None, None, [], None, Usage(UserMismatch));
      }
      if target.user == [] && login == [] {
        return Invocation(None, None, [], None, Usage(NoUser));
      }
      if login == [] {
        login := target.user;
      }
      targetDial := Some(Dial(login, target.host, flags.port, PasswordCallback(flags.password)));
    }
    if listing {
      return Invocation(targetDial, Some(target.path), [], None, ListingShown);
    }
    var done, rejected := Transfers(Cmd, args[..|args| - 1], target, targetIsDir, flags);
    r := Invocation(targetDial, None, done, rejected, if rejected.Some? then Usage(BothRemote) else Completed);
  }
}

=== FILE: dispatch.dfy ===
/**
 * The decisions `main` makes in both program variants: which user to log in
 * as, and whether each source argument is pulled, pushed or rejected. Flag
 * values, the directory test on the destination and the connections are
 * inputs or records here; nothing is dialled.
 */
module Dispatch {
  import opened Wrappers
  import opened GoStrings
  import opened HostLocation

  /** The flag values after parsing: -l, -pw, -P, -limit and -v. */
  datatype Flags = Flags(login: GoString, password: GoString, port: int, limit: int, verbose: bool)

  /** Why `main` prints its usage text and exits with status 1. */
  datatype UsageError = TooFewArguments | UserMismatch | NoUser | BothRemote

  /** How a connection answers the server's password question. */
  datatype Auth =
    | PasswordCallback(preset: GoString)                     // the -pw value, or a prompt on every call
    | CredCallback(user: GoString, host: GoString, pass: GoString)  // a cred record that caches one answer

  /** A connection `main` opens (connectToRemoteHost). */
  datatype Dial = Dial(user: GoString, host: GoString, port: int, auth: Auth)

  /** The local file a pull writes: the destination itself, or filepath.Join(dir, name). */
  datatype LocalTarget = AsGiven(path: GoString) | Joined(dir: GoString, name: GoString)

  /** One call to getFileFromRemoteHost or sendFileToRemoteHost. */
  datatype Transfer =
    | Get(dial: Dial, local: LocalTarget, remoteFile: GoString)
    | Send(source: GoString, limit: int, target: Location)

  /** src/cmd/goscp/main.go or the older top-level main.go. */
  datatype Variant = Cmd | Root

  /** A source host is always dialled on port 22, whatever -P says. */
  const SOURCE_PORT: int := 22

  /**
   * The login name for the destination host: the -l flag and the user@
   * prefix must agree when both are given, at least one must be given, and
   * the result is whichever is given.
   */
  function EffectiveUser(targetUser: GoString, login: GoString): (r: Result<GoString, UsageError>)
    ensures r.Failure? <==>
      (targetUser != [] && login != [] && targetUser != login) || (targetUser == [] && login == [])
    ensures r.Failure? ==> r.error == (if targetUser == [] then NoUser else UserMismatch)
    ensures r.Success? ==> r.value != []
    ensures r.Success? && login != [] ==> r.value == login
    ensures r.Success? && targetUser != [] ==> r.value == targetUser
  {
    if targetUser != [] && login != [] && targetUser != login then Failure(UserMismatch)
    else if targetUser == [] && login == [] then Failure(NoUser)
    else Success(if login == [] then targetUser else login)
  }

  /** How a source host is logged into: the -pw closure, or a fresh cred record with no password. */
  function SourceAuth(variant: Variant, src: Location, flags: Flags): (auth: Auth)
    ensures auth.PasswordCallback? <==> variant == Cmd
    ensures auth.PasswordCallback? ==> auth.preset == flags.password
    ensures auth.CredCallback? ==> auth.user == src.user && auth.host == src.host && auth.pass == []
  {
    match variant
    case Cmd => PasswordCallback(flags.password)
    case Root => CredCallback(src.user, src.host, [])
  }

  /** The connection `main` opens to a source host: its user and host, port 22, the variant's auth. */
  function SourceDial(variant: Variant, src: Location, flags: Flags): Dial
  {
    Dial(src.user, src.host, SOURCE_PORT, SourceAuth(variant, src, flags))
  }

  /**
   * What `main` does with one source argument: a transfer, or a rejection
   * (the usage message and exit), which comes only after the source host has
   * been dialled.
   */
  datatype Step = Proceed(transfer: Transfer) | Rejected(dial: Dial)

  /**
   * What `main` does with one source argument: a source with both a user and
   * a host is dialled and then pulled, unless the destination is remote too,
   * which is rejected; every other source, `host:path` without a user
   * included, is pushed under its original spelling.
   */
  function Route(variant: Variant, source: GoString, target: Location, targetIsDir: bool, flags: Flags)
    : (r: Step)
    ensures var src := ParseFileHostLocation(source);
      && (r.Rejected? <==> src.user != [] && src.host != [] && target.host != [])
      && (r.Rejected? ==> r.dial == SourceDial(variant, src, flags))
      && (r.Proceed? && r.transfer.Get? <==> src.user != [] && src.host != [] && target.host == [])
      && (r.Proceed? && r.transfer.Send? ==> r.transfer == Send(source, flags.limit, target))
      && (r.Proceed? && r.transfer.Get? ==>
            && r.transfer.dial == SourceDial(variant, src, flags)
            && r.transfer.remoteFile == src.path
            && r.transfer.local == (if targetIsDir then Joined(target.path, src.path) else AsGiven(target.path)))
  {
    var src := ParseFileHostLocation(source);
    if src.user != [] && src.host != [] then
      var dial := Dial(src.user, src.host, SOURCE_PORT, SourceAuth(variant, src, flags));
      if target.host == [] then
        var local := if targetIsDir then Joined(target.path, src.path) else AsGiven(target.path);
        Proceed(Get(dial, local, src.path))
      else Rejected(dial)
    else Proceed(Send(source, flags.limit, target))
  }

  /**
   * The loop of `main` over the source arguments: each is routed in order,
   * and the first one that is rejected ends the run (the transfers before it
   * have already happened); `rejected` is the connection opened for it.
   */
  method Transfers(variant: Variant, sources: seq<GoString>, target: Location, targetIsDir: bool, flags: Flags)
    returns (done: seq<Transfer>, rejected: Option<Dial>)
    ensures |done| <= |sources|
    ensures forall i :: 0 <= i < |done| ==> Route(variant, sources[i], target, targetIsDir, flags) == Proceed(done[i])
    ensures rejected.Some? <==> |done| < |sources|
    ensures rejected.Some? ==> Route(variant, sources[|done|], target, targetIsDir, flags) == Rejected(rejected.value)
  {
    done, rejected := [], None;
    var i := 0;
    while i < |sources|
      invariant 0 <= i <= |sources| && |done| == i
      invariant forall k :: 0 <= k < i ==> Route(variant, sources[k], target, targetIsDir, flags) == Proceed(done[k])
    {
      var step := Route(variant, sources[i], target, targetIsDir, flags);
      if step.Rejected? {
        rejected := Some(step.dial);
        return;
      }
      done := done + [step.transfer];
      i := i + 1;
    }
  }

  /** How a run of `main` ends. */
  datatype Exit =
    | Completed           // every source dispatched
    | Usage(reason: UsageError)  // usage text, exit status 1
    | ListingShown        // -ls: the listing was run, exit status 0
    | Panicked            // a Go run-time panic

  /**
   * Everything a run of `main` decides: the destination connection, a
   * listing, the transfers, the source connection opened for a rejected
   * source, and the end.
   */
  datatype Invocation = Invocation(
    targetDial: Option<Dial>,
    listing: Option<GoString>,
    transfers: seq<Transfer>,
    rejectedDial: Option<Dial>,
    exit: Exit)
}

=== FILE: filepath.dfy ===
/** filepath.Base for slash-separated paths. */
module FilePath {
  import opened GoStrings

  /** `s` without its trailing slashes. */
  function TrimTrailingSlashes(s: GoString): (r: GoString)
    ensures r <= s
    ensures r == [] || r[|r| - 1] != SLASH
    ensures forall i :: |r| <= i < |s| ==> s[i] == SLASH
  {
    if s != [] && s[|s| - 1] == SLASH then TrimTrailingSlashes(s[..|s| - 1]) else s
  }

  /** The text after the last slash of `s` (all of `s` when it has none). */
  function AfterLastSlash(s: GoString): (r: GoString)
    ensures SLASH !in r
    ensures |r| <= |s| && r == s[|s| - |r|..]
    ensures |r| == |s| || s[|s| - |r| - 1] == SLASH
  {
    if s == [] || s[|s| - 1] == SLASH then []
    else AfterLastSlash(s[..|s| - 1]) + [s[|s| - 1]]
  }

  /**
   * The last element of a path: "." for the empty path, "/" for a path of
   * slashes only, otherwise the text after the last slash once trailing
   * slashes are removed.
   */
  function Base(path: GoString): (name: GoString)
    ensures name != []
    ensures name == [SLASH] || SLASH !in name
  {
    if path == [] then [DOT]
    else
      var last := AfterLastSlash(TrimTrailingSlashes(path));
      if last == [] then [SLASH] else last
  }

  /** Removing trailing slashes leaves a path that ends in a name untouched apart from them. */
  lemma {:induction false} TrimSlashesAfterName(p: GoString, t: GoString)
    requires p != [] && p[|p| - 1] != SLASH
    requires forall i :: 0 <= i < |t| ==> t[i] == SLASH
    ensures TrimTrailingSlashes(p + t) == p
    decreases |t|
  {
    if t == [] {
      assert p + t == p;
    } else {
      assert (p + t)[..|p + t| - 1] == p + t[..|t| - 1];
      TrimSlashesAfterName(p, t[..|t| - 1]);
    }
  }

  /** The text after the last slash of `d/n` is `n` when `n` has no slash. */
  lemma {:induction false} AfterSlashIsName(d: GoString, n: GoString)
    requires SLASH !in n
    ensures AfterLastSlash(d + [SLASH] + n) == n
    decreases |n|
  {
    var s := d + [SLASH] + n;
    if n == [] {
      assert s[|s| - 1] == SLASH;
    } else {
      assert s[..|s| - 1] == d + [SLASH] + n[..|n| - 1];
      AfterSlashIsName(d, n[..|n| - 1]);
      assert n[..|n| - 1] + [n[|n| - 1]] == n;
    }
  }

  /**
   * filepath.Base gives the last element: `d/n` followed by any number of
   * slashes has base `n`, for a nonempty name `n` without slashes.
   */
  lemma BaseIsLastElement(d: GoString, n: GoString, t: GoString)
    requires n != [] && SLASH !in n
    requires forall i :: 0 <= i < |t| ==> t[i] == SLASH
    ensures Base(d + [SLASH] + n + t) == n
  {
    var p := d + [SLASH] + n;
    assert p[|p| - 1] == n[|n| - 1];
    TrimSlashesAfterName(p, t);
    AfterSlashIsName(d, n);
  }

  /** A bare name is its own base. */
  lemma BaseOfName(n: GoString)
    requires n != [] && SLASH !in n
    ensures Base(n) == n
  {
    TrimSlashesAfterName(n, []);
    assert n + [] == n;
  }
}

=== FILE: gostrings.dfy ===
/**
 * Go strings and the parts of Go's `strings` package the program uses.
 * A Go string is a sequence of bytes; the separators the program splits on
 * are single ASCII bytes, named below.
 */
module GoStrings {
  newtype byte = b: int | 0 <= b < 256

  type GoString = seq<byte>

  const NUL: byte := 0
  const NEWLINE: byte := 10     // '\n'
  const SPACE: byte := 32       // ' '
  const PLUS: byte := 43        // '+'
  const MINUS: byte := 45       // '-'
  const DOT: byte := 46         // '.'
  const SLASH: byte := 47       // '/'
  const DIGIT_ZERO: byte := 48  // '0'
  const COLON: byte := 58       // ':'
  const AT: byte := 64          // '@'
  const LETTER_C: byte := 67    // 'C'

  /** Number of occurrences of `c` in `s` (strings.Count for a one-byte separator). */
  function Count(s: GoString, c: byte): (n: nat)
    ensures n <= |s|
    ensures n == 0 <==> c !in s
  {
    if s == [] then 0 else (if s[0] == c then 1 else 0) + Count(s[1..], c)
  }

  /** Position of the first `c` in `s`, or -1 (strings.IndexByte). */
  function Index(s: GoString, c: byte): (i: int)
    ensures -1 <= i < |s|
    ensures i == -1 <==> c !in s
    ensures 0 <= i ==> s[i] == c && c !in s[..i]
  {
    if s == [] then -1
    else if s[0] == c then 0
    else
      var j := Index(s[1..], c);
      if j == -1 then -1
      else
        assert s[..j + 1] == [s[0]] + s[1..][..j];
        j + 1
  }

  /**
   * strings.Split(s, sep) for a one-byte separator: the pieces between the
   * separators, so one more piece than there are separators, and never an
   * empty list (Split("", sep) is [""]).
   */
  function Split(s: GoString, sep: byte): (parts: seq<GoString>)
    ensures |parts| == Count(s, sep) + 1
    ensures forall i :: 0 <= i < |parts| ==> sep !in parts[i]
  {
    if s == [] then [[]]
    else
      var rest := Split(s[1..], sep);
      if s[0] == sep then [[]] + rest
      else [[s[0]] + rest[0]] + rest[1..]
  }

  /** strings.Join(parts, sep) for a one-byte separator. */
  function Join(parts: seq<GoString>, sep: byte): GoString
  {
    if parts == [] then []
    else if |parts| == 1 then parts[0]
    else parts[0] + [sep] + Join(parts[1..], sep)
  }

  /** Joining the pieces of a split gives back the original string. */
  lemma {:induction false} SplitJoin(s: GoString, sep: byte)
    ensures Join(Split(s, sep), sep) == s
  {
    if s != [] {
      var rest := Split(s[1..], sep);
      SplitJoin(s[1..], sep);
      if s[0] != sep && |rest| > 1 {
        assert Join(rest, sep) == rest[0] + [sep] + Join(rest[1..], sep);
      }
    }
  }

  /** The first piece of a split is the text before the first separator. */
  lemma {:induction false} SplitFirst(s: GoString, sep: byte)
    ensures Split(s, sep)[0] == if sep in s then s[..Index(s, sep)] else s
  {
    if s != [] && s[0] != sep {
      SplitFirst(s[1..], sep);
      if sep in s[1..] {
        assert s[..Index(s, sep)] == [s[0]] + s[1..][..Index(s[1..], sep)];
      }
    }
  }

  /** A string with exactly one separator splits into the text before and after it. */
  lemma SplitOnce(s: GoString, sep: byte)
    requires Count(s, sep) == 1
    ensures 0 <= Index(s, sep)
    ensures Split(s, sep) == [s[..Index(s, sep)], s[Index(s, sep) + 1..]]
  {
    var parts := Split(s, sep);
    var a, b := parts[0], parts[1];
    SplitJoin(s, sep);
    assert parts == [a, b];
    assert s == a + [sep] + b;
    assert s[..|a|] == a;
    assert s[|a| + 1..] == b;
  }

  /** The text before the first `c`, `c` itself and the text after it make up `s`. */
  lemma AroundFirst(s: GoString, c: byte)
    requires c in s
    ensures s[..Index(s, c)] + [c] + s[Index(s, c) + 1..] == s
  {
  }

  /** Regrouping a string built from three pieces and two separators. */
  lemma Regroup(a: GoString, x: byte, b: GoString, y: byte, d: GoString)
    ensures a + [x] + (b + [y] + d) == a + [x] + b + [y] + d
  {
  }

  /** A leading piece free of separators becomes the first element of the split. */
  lemma {:induction false} SplitAfterPiece(a: GoString, sep: byte, rest: GoString)
    requires sep !in a
    ensures Split(a + [sep] + rest, sep) == [a] + Split(rest, sep)
  {
    if a != [] {
      var s := a + [sep] + rest;
      assert s[1..] == a[1..] + [sep] + rest;
      SplitAfterPiece(a[1..], sep, rest);
      var r := Split(s[1..], sep);
      assert r[0] == a[1..] && r[1..] == Split(rest, sep);
      assert [a[0]] + a[1..] == a;
    }
  }
}

=== FILE: location.dfy ===
/**
 * The `[user@]host:path` arguments of goscp (parseFileHostLocation, the same
 * text in both program variants).
 */
module HostLocation {
  import opened GoStrings

  datatype Location = Location(user: GoString, host: GoString, path: GoString)

  /**
   * parseFileHostLocation: split on '@'; with exactly two pieces the first is
   * the user and the second is split on ':', otherwise the FIRST piece (the
   * text before any '@') is split on ':'. With exactly two ':'-pieces they are
   * host and path; otherwise host is empty and path is the whole argument.
   */
  function ParseFileHostLocation(loc: GoString): (r: Location)
    ensures AT !in r.user && COLON !in r.host
  {
    var sp1 := Split(loc, AT);
    var user: GoString := if |sp1| == 2 then sp1[0] else [];
    var sp2 := if |sp1| == 2 then Split(sp1[1], COLON) else Split(sp1[0], COLON);
    if |sp2| == 2 then Location(user, sp2[0], sp2[1]) else Location(user, [], loc)
  }

  /**
   * The text whose ':'-split decides host and path, read off by position:
   * after the '@' when there is exactly one, before the first '@' when there
   * are several, the whole argument when there is none.
   */
  function HostPart(loc: GoString): GoString
  {
    if Count(loc, AT) == 1 then loc[Index(loc, AT) + 1..]
    else if AT in loc then loc[..Index(loc, AT)]
    else loc
  }

  /** The location described by separator positions instead of splits. */
  function LocationByIndex(loc: GoString): Location
  {
    var user: GoString := if Count(loc, AT) == 1 then loc[..Index(loc, AT)] else [];
    var hp := HostPart(loc);
    if Count(hp, COLON) == 1 then Location(user, hp[..Index(hp, COLON)], hp[Index(hp, COLON) + 1..])
    else Location(user, [], loc)
  }

  /** The '@'-split yields the user and the text that is split on ':' next. */
  lemma AtSplitByPosition(loc: GoString)
    ensures var sp1 := Split(loc, AT);
      && (if |sp1| == 2 then sp1[1] else sp1[0]) == HostPart(loc)
      && (if |sp1| == 2 then sp1[0] else []) == (if Count(loc, AT) == 1 then loc[..Index(loc, AT)] else [])
  {
    if Count(loc, AT) == 1 {
      SplitOnce(loc, AT);
    } else {
      SplitFirst(loc, AT);
    }
  }

  /** The ':'-split has two pieces exactly when there is one ':', and they lie on either side of it. */
  lemma ColonSplitByPosition(hp: GoString)
    ensures var sp2 := Split(hp, COLON);
      && (|sp2| == 2 <==> Count(hp, COLON) == 1)
      && (|sp2| == 2 ==> sp2[0] == hp[..Index(hp, COLON)] && sp2[1] == hp[Index(hp, COLON) + 1..])
  {
    if Count(hp, COLON) == 1 {
      SplitOnce(hp, COLON);
    }
  }

  /** Parsing by splits agrees with the positional reading on every argument. */
  lemma ParseByPosition(loc: GoString)
    ensures ParseFileHostLocation(loc) == LocationByIndex(loc)
  {
    AtSplitByPosition(loc);
    ColonSplitByPosition(HostPart(loc));
  }

  /** The positional reading of a `user@host:path` argument rebuilds it. */
  lemma PositionsRebuild(loc: GoString)
    requires Count(loc, AT) == 1 && Count(HostPart(loc), COLON) == 1
    ensures var r := LocationByIndex(loc); r.user + [AT] + r.host + [COLON] + r.path == loc
  {
    var i := Index(loc, AT);
    var hp := HostPart(loc);
    var j := Index(hp, COLON);
    AroundFirst(loc, AT);
    AroundFirst(hp, COLON);
    Regroup(loc[..i], AT, hp[..j], COLON, hp[j + 1..]);
  }

  /** With one '@' and one ':' after it, user, host and path rebuild the argument. */
  lemma ParseRoundTrip(loc: GoString)
    requires Count(loc, AT) == 1 && Count(HostPart(loc), COLON) == 1
    ensures var r := ParseFileHostLocation(loc);
      r.user + [AT] + r.host + [COLON] + r.path == loc
  {
    ParseByPosition(loc);
    PositionsRebuild(loc);
  }

  /** Without '@' and with one ':', the user is empty and host:path is the argument. */
  lemma ParseRoundTripNoUser(loc: GoString)
    requires AT !in loc && Count(loc, COLON) == 1
    ensures var r := ParseFileHostLocation(loc);
      r.user == [] && r.host + [COLON] + r.path == loc
  {
    ParseByPosition(loc);
    AroundFirst(loc, COLON);
  }

  /**
   * When the ':'-split does not give two pieces, host is empty and path is
   * the whole argument, even if a user was taken from before an '@'.
   */
  lemma ParseFallback(loc: GoString)
    requires Count(HostPart(loc), COLON) != 1
    ensures var r := ParseFileHostLocation(loc);
      r.host == [] && r.path == loc
      && r.user == (if Count(loc, AT) == 1 then loc[..Index(loc, AT)] else [])
  {
    ParseByPosition(loc);
  }

  /**
   * With two or more '@' there is no user, and only the text before the first
   * '@' is split on ':': what follows that '@' is dropped from host and path
   * unless the fallback returns the whole argument as path.
   */
  lemma ParseSeveralAts(loc: GoString)
    requires Count(loc, AT) >= 2
    ensures var r := ParseFileHostLocation(loc);
      && r.user == []
      && ((r.host == [] && r.path == loc)
          || r.host + [COLON] + r.path == loc[..Index(loc, AT)])
  {
    ParseByPosition(loc);
    var hp := HostPart(loc);
    if Count(hp, COLON) == 1 {
      AroundFirst(hp, COLON);
    }
  }

  /** ":path" has an empty host, and its path is not the whole argument. */
  lemma ParseEmptyHost(path: GoString)
    requires AT !in path && COLON !in path
    ensures ParseFileHostLocation([COLON] + path) == Location([], [], path)
  {
    var loc := [COLON] + path;
    ParseByPosition(loc);
    assert loc[1..] == path;
    assert Count(loc, COLON) == 1;
    assert Index(loc, COLON) == 0;
  }
}

=== FILE: progress.dfy ===
/**
 * The progress-counting stream wrappers (writeProgress and readProgress):
 * each forwards to the stream it embeds and adds the length of the caller's
 * buffer to a shared progress counter. The progress bar is reduced to that
 * counter and a finished flag; its rendering and the average-rate message
 * are not part of the model.
 */
module Progress {
  import opened Wrappers
  import opened GoStrings
  import opened Streams

  /** A progress bar's counter (pb.ProgressBar). */
  class ProgressBar {
    const total: int
    var current: int
    var finished: bool

    constructor (total: int)
      ensures this.total == total && current == 0 && !finished
    {
      this.total := total;
      current := 0;
      finished := false;
    }

    method Add(n: int)
      modifies this
      ensures current == old(current) + n && finished == old(finished)
    {
      current := current + n;
    }

    method Finish()
      modifies this
      ensures finished && current == old(current)
    {
      finished := true;
    }
  }

  class WriteProgress {
    const embed: Writer
    const progress: ProgressBar
    /** When the transfer started (time.Now()); only the rate message reads it. */
    const start: int

    constructor (embed: Writer, progress: ProgressBar, start: int)
      ensures this.embed == embed && this.progress == progress && this.start == start
    {
      this.embed := embed;
      this.progress := progress;
      this.start := start;
    }

    /**
     * Write(p): the embedded writer's effect and its (n, err), unchanged;
     * the counter grows by len(p) even when fewer bytes were written.
     */
    method Write(p: seq<byte>) returns (n: nat, err: Option<IOError>)
      requires embed.Valid()
      modifies embed, progress
      ensures embed.Valid() && embed.Wrote(p, n, err)
      ensures embed.marks == old(embed.marks) + [if embed.peer == null then 0 else embed.peer.pos]
      ensures progress.current == old(progress.current) + |p|
      ensures progress.finished == old(progress.finished)
    {
      n, err := embed.Write(p);
      progress.Add(|p|);
    }

    /** Close: finish the bar, then close the embedded writer and return its error. */
    method Close() returns (err: Option<IOError>)
      modifies embed, progress
      ensures embed.closed && embed.written == old(embed.written) && err == embed.closeErr
      ensures embed.marks == old(embed.marks)
      ensures progress.finished && progress.current == old(progress.current)
    {
      progress.Finish();
      err := embed.Close();
    }
  }

  class ReadProgress {
    const embed: Reader
    const progress: ProgressBar
    /** When the transfer started (time.Now()); only the rate message reads it. */
    const start: int

    constructor (embed: Reader, progress: ProgressBar, start: int)
      ensures this.embed == embed && this.progress == progress && this.start == start
    {
      this.embed := embed;
      this.progress := progress;
      this.start := start;
    }

    /**
     * Read(p): the embedded reader's effect on `p` and its (n, err),
     * unchanged; the counter grows by len(p) even on a short read or at EOF.
     */
    method Read(p: array<byte>) returns (n: nat, err: Option<IOError>)
      requires embed.Valid()
      modifies embed, p, progress
      ensures embed.Valid() && embed.ReadInto(p, 0, p.Length, n, err)
      ensures progress.current == old(progress.current) + p.Length
      ensures progress.finished == old(progress.finished)
    {
      n, err := embed.Read(p, 0, p.Length);
      progress.Add(p.Length);
    }

    /** Close: finish the bar, then close the embedded reader and return its error. */
    method Close() returns (err: Option<IOError>)
      modifies embed, progress
      ensures embed.closed && embed.pos == old(embed.pos) && err == embed.closeErr
      ensures progress.finished && progress.current == old(progress.current)
    {
      progress.Finish();
      err := embed.Close();
    }
  }
}

=== FILE: root_goscp.dfy ===
/**
 * main.go: the older program. The password for each connection comes from
 * a `cred` record that prompts at most once per answer it keeps; a pull
 * reads the whole file into a buffer with io.ReadFull before writing it; a
 * push counts progress through writeProgress.
 */
module RootGoscp {
  import opened Wrappers
  import opened GoStrings
  import opened Strconv
  import opened FilePath
  import opened HostLocation
  import opened Dispatch
  import opened Streams
  import opened Progress
  import opened Scp

  /** The "Invalid User." error of cred.Password. */
  datatype CredError = InvalidUser

  /** What one call of cred.Password gives, and the password the record holds after it. */
  datatype Reply = Reply(password: GoString, err: Option<CredError>, prompted: bool, cache: GoString)

  /**
   * cred.Password(user) on a record for `owner` holding `cache`, where
   * `typed` is what the terminal would answer to the prompt.
   */
  function Answer(owner: GoString, cache: GoString, user: GoString, typed: GoString): (r: Reply)
    ensures r.prompted <==> user == owner && cache == []
    ensures r.err == Some(InvalidUser) <==> user != owner
    ensures r.err.None? ==> r.password == r.cache
    ensures r.prompted ==> r.cache == typed
    ensures !r.prompted ==> r.cache == cache
  {
    if user == owner && cache == [] then Reply(typed, None, true, typed)
    else if user == owner then Reply(cache, None, false, cache)
    else Reply([], Some(InvalidUser), false, cache)
  }

  /** One password question from the SSH client: the user asked for, and what would be typed. */
  datatype Call = Call(user: GoString, typed: GoString)

  /** The replies to a series of password questions put to one record. */
  function Replies(owner: GoString, cache: GoString, calls: seq<Call>): (rs: seq<Reply>)
    ensures |rs| == |calls|
    decreases |calls|
  {
    if calls == [] then []
    else
      var first := Answer(owner, cache, calls[0].user, calls[0].typed);
      [first] + Replies(owner, first.cache, calls[1..])
  }

  /** How many of the replies prompted on the terminal. */
  function Prompts(rs: seq<Reply>): (n: nat)
    ensures n <= |rs|
  {
    if rs == [] then 0 else (if rs[0].prompted then 1 else 0) + Prompts(rs[1..])
  }

  /** A preset password (-pw) is handed out as is and the terminal is never asked. */
  lemma {:induction false} PresetNeverPrompts(owner: GoString, preset: GoString, calls: seq<Call>)
    requires preset != []
    ensures var rs := Replies(owner, preset, calls);
      && Prompts(rs) == 0
      && forall i :: 0 <= i < |rs| ==> rs[i].cache == preset && (rs[i].err.None? ==> rs[i].password == preset)
  {
    if calls != [] {
      PresetNeverPrompts(owner, preset, calls[1..]);
      var rs := Replies(owner, preset, calls);
      assert rs[1..] == Replies(owner, preset, calls[1..]);
    }
  }

  /**
   * When every answer typed is non-empty, the terminal is asked at most
   * once however many questions come, and never once a password is held.
   */
  lemma {:induction false} PromptsAtMostOnce(owner: GoString, cache: GoString, calls: seq<Call>)
    requires forall i :: 0 <= i < |calls| ==> calls[i].typed != []
    ensures Prompts(Replies(owner, cache, calls)) <= 1
    ensures cache != [] ==> Prompts(Replies(owner, cache, calls)) == 0
    decreases |calls|
  {
    if calls != [] {
      var rs := Replies(owner, cache, calls);
      var first := Answer(owner, cache, calls[0].user, calls[0].typed);
      assert rs[1..] == Replies(owner, first.cache, calls[1..]);
      PromptsAtMostOnce(owner, first.cache, calls[1..]);
      if cache != [] {
        PresetNeverPrompts(owner, cache, calls);
      }
    }
  }

  /** An empty answer is not kept: every question for the owner prompts again. */
  lemma {:induction false} EmptyAnswersPromptEveryTime(owner: GoString, calls: seq<Call>)
    requires forall i :: 0 <= i < |calls| ==> calls[i] == Call(owner, [])
    ensures Prompts(Replies(owner, [], calls)) == |calls|
  {
    if calls != [] {
      EmptyAnswersPromptEveryTime(owner, calls[1..]);
      assert Replies(owner, [], calls)[1..] == Replies(owner, [], calls[1..]);
    }
  }

  /** The cred record of main.go: the login it answers for, the host, the password it holds. */
  class Cred {
    const user: GoString
    const host: GoString
    var pass: GoString

    constructor (user: GoString, host: GoString, pass: GoString)
      ensures this.user == user && this.host == host && this.pass == pass
    {
      this.user := user;
      this.host := host;
      this.pass := pass;
    }

    /**
     * Password(user), where `typed` is what the terminal answers if the
     * record prompts (gopass.GetPasswd).
     */
    method Password(user: GoString, typed: GoString) returns (password: GoString, err: Option<CredError>, prompted: bool)
      modifies this
      ensures var r := Answer(this.user, old(pass), user, typed);
        password == r.password && err == r.err && prompted == r.prompted && pass == r.cache
    {
      if user == this.user && pass == [] {
        pass := typed;
        return pass, None, true;
      } else if user == this.user {
        return pass, None, false;
      }
      return [], Some(InvalidUser), false;
    }
  }

  /**
   * What getFileFromRemoteHost does with the bytes `input` that `scp -f`
   * sends: a first line that is complete and starts with 'C' is a control
   * line and is accepted; any other ends the pull at once.
   */
  function Pull(input: seq<byte>): (r: PullRun)
    ensures r.consumed <= |input|
    ensures |r.acks| >= 2 && r.acks[..2] == [NUL, NUL]
    ensures r.status == Received <==> r.acks == [NUL, NUL, NUL]
    ensures r.status == ShortRead <==> r.acks == [NUL, NUL, FATAL]
    ensures r.status != Received ==> r.file == []
  {
    var line := LineOf(input, NEWLINE);
    if NEWLINE !in input || line[0] != LETTER_C then
      PullRun([NUL, NUL], [], |line|, NoControlRecord)
    else
      var run := Accept(line, input[|line|..]);
      run.(consumed := |line| + run.consumed)
  }

  /**
   * The pull after the control line `line` has been read, `rest` being the
   * bytes behind it; `consumed` counts bytes of `rest`. The file is read
   * whole into a buffer of `size` bytes: a negative size panics in make,
   * and a zero size panics when the terminator is read into buf[:1] of an
   * empty buffer.
   */
  function Accept(line: GoString, rest: seq<byte>): (r: PullRun)
    ensures r.consumed <= |rest|
    ensures |r.acks| >= 2 && r.acks[..2] == [NUL, NUL]
    ensures r.status == Received <==> r.acks == [NUL, NUL, NUL]
    ensures r.status == ShortRead <==> r.acks == [NUL, NUL, FATAL]
    ensures r.status != Received ==> r.file == []
    ensures r.status == Received ==> |r.file| > 0 && r.file <= rest
  {
    match SizeField(line)
    case None => PullRun([NUL, NUL], [], 0, Crashed)
    case Some(size) =>
      if size < 0 then PullRun([NUL, NUL], [], 0, Crashed)
      else if size > |rest| then PullRun([NUL, NUL, FATAL], [], |rest|, ShortRead)
      else if size == 0 then PullRun([NUL, NUL], [], 0, Crashed)
      else PullRun([NUL, NUL, NUL], rest[..size], size + Min(1, |rest| - size), Received)
  }

  /** A pull of what a push sends receives the pushed bytes exactly, provided there is at least one. */
  lemma PullReceivesPush(name: GoString, content: seq<byte>, after: seq<byte>)
    requires NEWLINE !in name && 0 < |content| <= MAX_INT64
    ensures Pull(PushStream(name, content) + after)
      == PullRun([NUL, NUL, NUL], content, |PushStream(name, content)|, Received)
  {
    var line := ControlLine(|content|, name);
    var input := PushStream(name, content) + after;
    var rest := content + [NUL] + after;
    assert input == line + rest;
    ControlLineIsOneLine(|content|, name, rest);
    ControlLineSize(|content|, name);
    assert input[|line|..] == rest;
    AcceptBody(line, content, after);
    PullAccepts(input, line, rest);
  }

  /** After a control line announcing |content| > 0 bytes, the content, its NUL and anything after are received. */
  lemma AcceptBody(line: GoString, content: seq<byte>, after: seq<byte>)
    requires 0 < |content| && SizeField(line) == Some(|content|)
    ensures Accept(line, content + [NUL] + after) == PullRun([NUL, NUL, NUL], content, |content| + 1, Received)
  {
    assert (content + [NUL] + after)[..|content|] == content;
  }

  /** A pull of an empty file acknowledges its control line and then panics, leaving the file empty. */
  lemma PullOfEmptyFileCrashes(name: GoString, after: seq<byte>)
    requires NEWLINE !in name
    ensures Pull(PushStream(name, []) + after)
      == PullRun([NUL, NUL], [], |ControlLine(0, name)|, Crashed)
  {
    var line := ControlLine(0, name);
    var input := PushStream(name, []) + after;
    assert input == line + ([NUL] + after);
    ControlLineIsOneLine(0, name, [NUL] + after);
    ControlLineSize(0, name);
    assert input[|line|..] == [NUL] + after;
    PullAccepts(input, line, [NUL] + after);
  }

  /**
   * A first line that does not start with 'C' ends the pull: the ready NUL
   * and a final NUL are sent, the file stays empty, and only that line is
   * consumed.
   */
  lemma PullWithoutControlRecord(first: seq<byte>, rest: seq<byte>)
    requires NEWLINE !in first && (first == [] || first[0] != LETTER_C)
    ensures Pull(first + [NEWLINE] + rest) == PullRun([NUL, NUL], [], |first| + 1, NoControlRecord)
  {
    LineOfFirstLine(first, NEWLINE, rest);
  }

  /**
   * When `scp -f` stops before `size` bytes, the pull answers 2 and the
   * file stays empty: nothing is written before the whole buffer is full.
   */
  lemma PullShortRead(name: GoString, size: nat, partial: seq<byte>)
    requires NEWLINE !in name && |partial| < size <= MAX_INT64
    ensures Pull(ControlLine(size, name) + partial)
      == PullRun([NUL, NUL, FATAL], [], |ControlLine(size, name)| + |partial|, ShortRead)
  {
    var line := ControlLine(size, name);
    ControlLineIsOneLine(size, name, partial);
    ControlLineSize(size, name);
    assert (line + partial)[|line|..] == partial;
  }

  /**
   * getFileFromRemoteHost once its pipes are open: `sr` is the buffered
   * output of `scp -f`, `iw` its input, `file` the local file.
   */
  method GetFile(sr: Reader, iw: Writer, file: LocalFile) returns (status: PullStatus)
    requires sr.Valid() && iw.Valid() && iw.written == [] && !iw.closed
    requires iw.peer == sr && iw.marks == []
    modifies sr, iw, file
    ensures sr.Valid() && iw.Valid() && !iw.closed && sr.closed == old(sr.closed)
    ensures var run := Pull(old(sr.Unread()));
      && status == run.status
      && iw.written == Take(run.acks, iw.capacity)
      && file.content == run.file
      && sr.pos == old(sr.pos) + run.consumed
    ensures |iw.marks| >= 2 && iw.marks[0] == old(sr.pos) && iw.marks[1] == old(sr.pos) + |LineOf(old(sr.Unread()), NEWLINE)|
    ensures |iw.marks| == (if status == Received || status == ShortRead then 3 else 2)
    ensures |iw.marks| == 3 ==> iw.marks[2] == sr.pos
  {
    var _, _ := iw.Write([NUL]);
    file.Create();
    status := AnswerFirstLine(sr, iw, file);
  }

  /**
   * The pull once the ready NUL is out and the local file exists: read the
   * first line, then acknowledge and receive a control line or refuse any
   * other line.
   */
  method AnswerFirstLine(sr: Reader, iw: Writer, file: LocalFile) returns (status: PullStatus)
    requires sr.Valid() && iw.Valid() && iw.written == Take([NUL], iw.capacity) && !iw.closed
    requires file.content == [] && iw.peer == sr
    modifies sr, iw, file
    ensures sr.Valid() && iw.Valid() && !iw.closed && sr.closed == old(sr.closed)
    ensures var run := Pull(old(sr.Unread()));
      && status == run.status
      && iw.written == Take(run.acks, iw.capacity)
      && file.content == run.file
      && sr.pos == old(sr.pos) + run.consumed
    ensures iw.marks == old(iw.marks) + [old(sr.pos) + |LineOf(old(sr.Unread()), NEWLINE)|]
      + (if status == Received || status == ShortRead then [sr.pos] else [])
  {
    ghost var input := sr.Unread();
    var line, err := sr.ReadString(NEWLINE);
    ghost var acked := iw.marks + [sr.pos];
    assert sr.pos == old(sr.pos) + |LineOf(input, NEWLINE)|;
    if err == None && |line| > 0 && line[0] == LETTER_C {
      ghost var rest := sr.Unread();
      PullAccepts(input, line, rest);
      status := Receive(sr, iw, file, line);
      assert iw.marks == acked + (if status == Received || status == ShortRead then [sr.pos] else []);
    } else {
      PullRefuses(input, line);
      status := Refuse(iw);
      assert iw.marks == acked;
    }
  }

  /** A complete first line that starts with 'C' is accepted as the control line. */
  lemma PullAccepts(input: seq<byte>, line: GoString, rest: seq<byte>)
    requires NEWLINE in input && line == LineOf(input, NEWLINE) && rest == input[|line|..]
    requires |line| > 0 && line[0] == LETTER_C
    ensures var run := Accept(line, rest); Pull(input) == run.(consumed := |line| + run.consumed)
  {
  }

  /** Any other first line ends the pull. */
  lemma PullRefuses(input: seq<byte>, line: GoString)
    requires line == LineOf(input, NEWLINE)
    requires NEWLINE !in input || |line| == 0 || line[0] != LETTER_C
    ensures Pull(input) == PullRun([NUL, NUL], [], |line|, NoControlRecord)
  {
  }

  /**
   * The rest of a pull once a control line has been read: acknowledge it
   * and take the size from it; a missing or negative size panics (the
   * second field is indexed, then make is called with the size).
   */
  method Receive(sr: Reader, iw: Writer, file: LocalFile, line: GoString) returns (status: PullStatus)
    requires sr.Valid() && iw.Valid() && iw.written == Take([NUL], iw.capacity) && !iw.closed
    requires file.content == [] && iw.peer == sr
    modifies sr, iw, file
    ensures sr.Valid() && iw.Valid() && !iw.closed && sr.closed == old(sr.closed)
    ensures var run := Accept(line, old(sr.Unread()));
      && status == run.status
      && iw.written == Take(run.acks, iw.capacity)
      && file.content == run.file
      && sr.pos == old(sr.pos) + run.consumed
    ensures iw.marks == old(iw.marks) + [old(sr.pos)]
      + (if status == Received || status == ShortRead then [sr.pos] else [])
  {
    ghost var rest := sr.Unread();
    var _, _ := iw.Write([NUL]);
    TakeAppend([NUL], [NUL], iw.capacity);
    var size := SizeField(line);
    if size.None? || size.value < 0 {
      return Crashed;
    }
    status := ReadBody(sr, iw, file, size.value);
  }

  /**
   * Read exactly `size` bytes into a new buffer, then answer 2 on a short
   * read, or write the buffer to the file, read the terminator into
   * buf[:1] (a panic when the buffer is empty) and send the final NUL.
   */
  method ReadBody(sr: Reader, iw: Writer, file: LocalFile, size: nat) returns (status: PullStatus)
    requires sr.Valid() && iw.Valid() && iw.written == Take([NUL, NUL], iw.capacity) && !iw.closed
    requires file.content == [] && iw.peer == sr
    modifies sr, iw, file
    ensures sr.Valid() && iw.Valid() && !iw.closed && sr.closed == old(sr.closed)
    ensures iw.marks == old(iw.marks) + (if size == 0 then [] else [sr.pos])
    ensures var rest := old(sr.Unread());
      && (size > |rest| ==>
           status == ShortRead && iw.written == Take([NUL, NUL, FATAL], iw.capacity)
           && file.content == [] && sr.pos == old(sr.pos) + |rest|)
      && (size == 0 ==>
           status == Crashed && iw.written == Take([NUL, NUL], iw.capacity)
           && file.content == [] && sr.pos == old(sr.pos))
      && (0 < size <= |rest| ==>
           && status == Received && iw.written == Take([NUL, NUL, NUL], iw.capacity)
           && file.content == rest[..size] && sr.pos == old(sr.pos) + size + Min(1, |rest| - size))
  {
    var buf := new byte[size];
    var n, readErr := ReadFull(sr, buf);
    if readErr != None || n < buf.Length {
      var _, _ := iw.Write([FATAL]);
      TakeAppend([NUL, NUL], [FATAL], iw.capacity);
      return ShortRead;
    }
    file.Write(buf[..]);
    if buf.Length < 1 {
      return Crashed;
    }
    var _, _ := sr.Read(buf, 0, 1);
    var _, _ := iw.Write([NUL]);
    TakeAppend([NUL, NUL], [NUL], iw.capacity);
    status := Received;
  }

  /**
   * io.Copy(wp, src) over a source file whose reads return full buffers:
   * each chunk goes through writeProgress, which counts it whole even when
   * the pipe took only part of it; the first short write ends the copy.
   */
  method CopyToProgress(content: seq<byte>, wp: WriteProgress)
    requires wp.embed.Valid() && !wp.embed.closed
    modifies wp.embed, wp.progress
    ensures wp.embed.Valid() && !wp.embed.closed
    ensures var room := wp.embed.capacity - |old(wp.embed.written)|;
      && wp.embed.written == old(wp.embed.written) + Take(content, room)
      && wp.progress.finished == old(wp.progress.finished)
      && var counted := wp.progress.current - old(wp.progress.current);
         && (|content| <= room ==> counted == |content|)
         && (room < |content| ==> room < counted <= Min(room + COPY_BUFFER, |content|))
  {
    var iw := wp.embed;
    ghost var start := iw.written;
    ghost var room := iw.capacity - |start|;
    var off := 0;
    while off < |content|
      invariant iw.Valid() && !iw.closed
      invariant off <= |content| && off <= room
      invariant iw.written == start + content[..off]
      invariant wp.progress.current == old(wp.progress.current) + off
      invariant wp.progress.finished == old(wp.progress.finished)
    {
      var end := Min(off + COPY_BUFFER, |content|);
      var n, err := wp.Write(content[off..end]);
      TakeChunk(content, off, end, room);
      AfterDelivered(start, content[..off], Take(content[off..end], room - off));
      if err != None {
        assert room < end;
        return;
      }
      off := end;
    }
    assert content[..off] == content;
  }

  /**
   * The goroutine of sendFileToRemoteHost: `source` is the content of the
   * local file, or None when it cannot be opened or stat'ed, where
   * log.Fatalln ends the program before anything is sent; `now` is the
   * start time handed to writeProgress. Returns whether the file was sent
   * and what the progress bar counted.
   */
  method SendFile(source: Option<seq<byte>>, sourceFile: GoString, iw: Writer, now: int)
    returns (sent: bool, counted: int)
    requires iw.Valid() && iw.written == [] && !iw.closed
    modifies iw
    ensures iw.Valid()
    ensures sent <==> source.Some?
    ensures !sent ==> iw.written == [] && !iw.closed && counted == 0
    ensures sent ==>
      var content := source.value;
      var name := Base(sourceFile);
      var delivered := DeliveredContent(name, content, iw.capacity);
      && iw.closed
      && iw.written == Take(PushStream(name, content), iw.capacity)
      && (delivered == |content| ==> counted == |content|)
      && (delivered < |content| ==> delivered < counted <= Min(delivered + COPY_BUFFER, |content|))
  {
    if source.None? {
      return false, 0;
    }
    var content := source.value;
    var name := Base(sourceFile);
    var line := ControlLine(|content|, name);
    counted := Push(line, content, iw, now);
    sent := true;
  }

  /**
   * The writes of a push once the source is open: the control line to the
   * pipe, the content through writeProgress, the NUL terminator to the pipe
   * again, then writeProgress.Close, which finishes the bar and closes the
   * pipe.
   */
  method Push(line: GoString, content: seq<byte>, iw: Writer, now: int) returns (counted: int)
    requires iw.Valid() && iw.written == [] && !iw.closed
    modifies iw
    ensures iw.Valid() && iw.closed
    ensures iw.written == Take(line + content + [NUL], iw.capacity)
    ensures var room := Max(0, iw.capacity - |line|);
      && (|content| <= room ==> counted == |content|)
      && (room < |content| ==> room < counted <= Min(room + COPY_BUFFER, |content|))
  {
    PushPieces(line, content, iw.capacity);
    var _, _ := iw.Write(line);
    assert iw.capacity - |iw.written| == Max(0, iw.capacity - |line|);
    var bar := new ProgressBar(|content|);
    var wp := new WriteProgress(iw, bar, now);
    CopyToProgress(content, wp);
    var _, _ := iw.Write([NUL]);
    var _ := wp.Close();
    counted := bar.current;
  }

  /**
   * `main` after flag parsing: `args` are the positional arguments and
   * `targetIsDir` what os.Stat says of the destination path.
   */
  method Run(flags: Flags, args: seq<GoString>, targetIsDir: bool) returns (r: Invocation)
    ensures r.exit == Usage(TooFewArguments) <==> |args| < 2
    ensures r.exit != Panicked && r.exit != ListingShown && r.listing.None?
    ensures |args| >= 2 ==>
      var target := ParseFileHostLocation(args[|args| - 1]);
      var user := EffectiveUser(target.user, flags.login);
      && (r.exit in {Usage(UserMismatch), Usage(NoUser)} <==> target.host != [] && user.Failure?)
      && (target.host != [] && user.Failure? ==> r.exit == Usage(user.error))
      && (r.targetDial.Some? <==> target.host != [] && user.Success?)
      && (r.targetDial.Some? ==>
            r.targetDial.value
              == Dial(user.value, target.host, flags.port, CredCallback(user.value, target.host, flags.password)))
      && |r.transfers| < |args|
      && (forall i :: 0 <= i < |r.transfers| ==>
            Route(Root, args[i], target, targetIsDir, flags) == Proceed(r.transfers[i]))
      && (r.exit == Completed ==> |r.transfers| == |args| - 1)
      && (r.exit == Usage(BothRemote) ==>
            && |r.transfers| < |args| - 1 && r.rejectedDial.Some?
            && Route(Root, args[|r.transfers|], target, targetIsDir, flags) == Rejected(r.rejectedDial.value))
    ensures r.transfers != [] ==> r.exit in {Completed, Usage(BothRemote)}
    ensures r.rejectedDial.Some? <==> r.exit == Usage(BothRemote)
    ensures r.exit == Usage(TooFewArguments) ==> r.targetDial.None? && r.transfers == []
  {
    if |args| < 2 {
      return Invocation(None, None, [], None, Usage(TooFewArguments));
    }
    var target := ParseFileHostLocation(args[|args| - 1]);
    var login := flags.login;
    var targetDial: Option<Dial> := None;
    if target.host != [] {
      if target.user != [] && login != [] && target.user != login {
        return Invocation(None, None, [], None, Usage(UserMismatch));
      }
      if target.user == [] && login == [] {
        return Invocation(None, None, [], None, Usage(NoUser));
      }
      if login == [] {
        login := target.user;
      }
      targetDial := Some(Dial(login, target.host, flags.port, CredCallback(login, target.host, flags.password)));
    }
    var done, rejected := Transfers(Root, args[..|args| - 1], target, targetIsDir, flags);
    r := Invocation(targetDial, None, done, rejected, if rejected.Some? then Usage(BothRemote) else Completed);
  }
}

=== FILE: scp.dfy ===
/**
 * The byte layout of the legacy `scp -t` / `scp -f` exchange as goscp
 * speaks it: the control line `C0644 <size> <name>\n`, the file bytes, a
 * NUL terminator, and the one-byte answers the pulling side writes back.
 */
module Scp {
  import opened Wrappers
  import opened GoStrings
  import opened Strconv
  import opened Streams

  /** The permission field goscp always sends: "0644". */
  const MODE: GoString := [48, 54, 52, 52]

  /** The answer a pull sends after a short read. */
  const FATAL: byte := 2

  /** fmt.Fprintln(w, "C0644", size, name): the three values joined by spaces, then a newline. */
  function ControlLine(size: nat, name: GoString): (line: GoString)
    ensures |line| > 0 && line[0] == LETTER_C && line[|line| - 1] == NEWLINE
  {
    [LETTER_C] + MODE + [SPACE] + Decimal(size) + [SPACE] + name + [NEWLINE]
  }

  /**
   * Everything a push writes into `scp -t`: control line, file bytes, NUL.
   * The file's bytes sit between the control line and the closing NUL.
   */
  function PushStream(name: GoString, content: seq<byte>): (s: GoString)
    ensures |s| == |ControlLine(|content|, name)| + |content| + 1
    ensures s[0] == LETTER_C && s[|s| - 1] == NUL
    ensures s[|ControlLine(|content|, name)|..|s| - 1] == content
  {
    ControlLine(|content|, name) + content + [NUL]
  }

  /**
   * Writing the control line, the file and the NUL one after the other
   * into a pipe with room for `capacity` bytes delivers a prefix of the
   * whole stream.
   */
  lemma PushPieces(line: GoString, content: seq<byte>, capacity: nat)
    ensures var head := Take(line, capacity);
      var body := Take(content, capacity - |head|);
      head + body + Take([NUL], capacity - |head + body|) == Take(line + content + [NUL], capacity)
  {
    TakeAppend(line, content, capacity);
    TakeAppend(line + content, [NUL], capacity);
  }

  /**
   * How many file bytes reach a far end that reads `capacity` bytes of a
   * push stream in all.
   */
  function DeliveredContent(name: GoString, content: seq<byte>, capacity: nat): (k: nat)
    ensures k <= |content|
    ensures |content| > 0 ==> (k == |content| <==> |ControlLine(|content|, name)| + |content| <= capacity)
  {
    Max(0, Min(|content|, capacity - |ControlLine(|content|, name)|))
  }

  /**
   * The size a pull reads from a control line: strconv.ParseInt of the
   * second space-separated field with its error ignored. None when the line
   * has no space, where indexing the second field panics.
   */
  function SizeField(line: GoString): (size: Option<int>)
    ensures size.Some? <==> SPACE in line
    ensures size.Some? ==> -INT64_CUTOFF <= size.value <= MAX_INT64
  {
    var parts := Split(line, SPACE);
    if |parts| < 2 then None else Some(ParseInt(parts[1]).0)
  }

  /** Round trip: the size field of a control line reads back the size that was sent. */
  lemma ControlLineSize(size: nat, name: GoString)
    requires size <= MAX_INT64
    ensures SizeField(ControlLine(size, name)) == Some(size)
  {
    var head := [LETTER_C] + MODE;
    var digits := Decimal(size);
    var tail := name + [NEWLINE];
    DecimalHasNoSeparator(size);
    assert ControlLine(size, name) == head + [SPACE] + (digits + [SPACE] + tail);
    SplitAfterPiece(head, SPACE, digits + [SPACE] + tail);
    SplitAfterPiece(digits, SPACE, tail);
    ParseDecimal(size);
  }

  /**
   * A second field that ParseInt rejects as malformed gives size 0, whether
   * a third field follows it or the field runs to the end of the line: the
   * cmd program's pull then completes as for an empty file, and the root
   * program's pull panics.
   */
  lemma MalformedSizeIsZero(head: GoString, field: GoString, suffix: GoString)
    requires SPACE !in head && SPACE !in field
    requires suffix == [] || suffix[0] == SPACE
    requires ParseInt(field).1 == Some(Syntax)
    ensures SizeField(head + [SPACE] + field + suffix) == Some(0)
  {
    SecondField(head, field, suffix);
  }

  /** The second space-separated field of `head field...` is `field`. */
  lemma SecondField(head: GoString, field: GoString, suffix: GoString)
    requires SPACE !in head && SPACE !in field
    requires suffix == [] || suffix[0] == SPACE
    ensures var parts := Split(head + [SPACE] + field + suffix, SPACE);
      |parts| >= 2 && parts[1] == field
  {
    var rest := field + suffix;
    assert head + [SPACE] + field + suffix == head + [SPACE] + rest;
    SplitAfterPiece(head, SPACE, rest);
    FirstField(field, suffix);
  }

  /** The first space-separated field of `field` followed by nothing or by a space is `field`. */
  lemma FirstField(field: GoString, suffix: GoString)
    requires SPACE !in field
    requires suffix == [] || suffix[0] == SPACE
    ensures Split(field + suffix, SPACE)[0] == field
  {
    if suffix == [] {
      assert field + suffix == field;
      SplitFirst(field, SPACE);
    } else {
      assert field + suffix == field + [SPACE] + suffix[1..];
      SplitAfterPiece(field, SPACE, suffix[1..]);
    }
  }

  /**
   * A control line with a size but no name, such as "C0644 12\n", keeps the
   * newline in its size field, which ParseInt rejects: the size reads as 0.
   */
  lemma ControlLineWithoutNameIsEmpty(size: nat)
    requires size <= MAX_UINT64
    ensures SizeField([LETTER_C] + MODE + [SPACE] + Decimal(size) + [NEWLINE]) == Some(0)
  {
    var field := Decimal(size) + [NEWLINE];
    ScanDecimal(size);
    assert field[..|field| - 1] == Decimal(size);
    assert ScanDigits(field) == Failure(Syntax);
    assert ParseInt(field).1 == Some(Syntax);
    DecimalHasNoSeparator(size);
    assert [LETTER_C] + MODE + [SPACE] + Decimal(size) + [NEWLINE] == [LETTER_C] + MODE + [SPACE] + field + [];
    MalformedSizeIsZero([LETTER_C] + MODE, field, []);
  }

  /** A control line whose name has no newline is read as exactly one line. */
  lemma ControlLineIsOneLine(size: nat, name: GoString, rest: seq<byte>)
    requires NEWLINE !in name
    ensures LineOf(ControlLine(size, name) + rest, NEWLINE) == ControlLine(size, name)
  {
    var body := [LETTER_C] + MODE + [SPACE] + Decimal(size) + [SPACE] + name;
    DecimalHasNoSeparator(size);
    assert ControlLine(size, name) + rest == body + [NEWLINE] + rest;
    LineOfFirstLine(body, NEWLINE, rest);
  }

  /** What a pull has done when it stops. */
  datatype PullStatus =
    | Received         // the file arrived, the final NUL was sent
    | NoControlRecord  // the first line was missing or did not start with 'C'
    | ShortRead        // the stream ended before `size` bytes
    | Crashed          // a Go run-time panic ended the program

  /**
   * The outcome of a pull: the bytes written to the remote command's
   * input, the local file's content, how many bytes of the remote output
   * were consumed, and the status.
   */
  datatype PullRun = PullRun(acks: seq<byte>, file: seq<byte>, consumed: nat, status: PullStatus)

  /**
   * Both programs answer a first line that is not a control line with a
   * second NUL and stop.
   */
  method Refuse(iw: Writer) returns (status: PullStatus)
    requires iw.Valid() && iw.written == Take([NUL], iw.capacity) && !iw.closed
    modifies iw
    ensures iw.Valid() && !iw.closed && iw.written == Take([NUL, NUL], iw.capacity)
    ensures iw.marks == old(iw.marks) + [if iw.peer == null then 0 else iw.peer.pos]
    ensures status == NoControlRecord
  {
    var _, _ := iw.Write([NUL]);
    TakeAppend([NUL], [NUL], iw.capacity);
    status := NoControlRecord;
  }
}

=== FILE: strconv.dfy ===
/**
 * Decimal formatting of a file size (as fmt prints an int64) and
 * strconv.ParseInt(s, 10, 64), including Go's error results: a syntax error
 * yields 0, an out-of-range number yields the nearest int64 bound.
 */
module Strconv {
  import opened Wrappers
  import opened GoStrings

  const MAX_UINT64: int := 0xFFFF_FFFF_FFFF_FFFF
  const MAX_INT64: int := 0x7FFF_FFFF_FFFF_FFFF
  /** 1 << 63, the magnitude of the smallest int64 */
  const INT64_CUTOFF: int := 0x8000_0000_0000_0000

  predicate IsDigit(c: byte) { DIGIT_ZERO <= c <= DIGIT_ZERO + 9 }

  /** The base-10 text of a non-negative number, without leading zeros. */
  function Decimal(n: nat): (s: GoString)
    ensures 1 <= |s|
    ensures forall i :: 0 <= i < |s| ==> IsDigit(s[i])
  {
    if n < 10 then [DIGIT_ZERO + n as byte]
    else Decimal(n / 10) + [DIGIT_ZERO + (n % 10) as byte]
  }

  datatype NumError = Syntax | Range

  /**
   * The digit loop of strconv.ParseUint(s, 10, 64), which reads left to
   * right and stops at the first non-digit (syntax error) or at the first
   * prefix whose value exceeds 2^64 - 1 (range error), whichever comes first.
   * Written as a recursion on the prefix, so an earlier failure wins.
   */
  function ScanDigits(s: GoString): (r: Result<nat, NumError>)
    ensures r.Success? ==> r.value <= MAX_UINT64 && forall i :: 0 <= i < |s| ==> IsDigit(s[i])
    ensures r == Failure(Syntax) ==> exists i :: 0 <= i < |s| && !IsDigit(s[i])
  {
    if s == [] then Success(0)
    else
      var prefix := ScanDigits(s[..|s| - 1]);
      var c := s[|s| - 1];
      if prefix.Failure? then prefix
      else if !IsDigit(c) then Failure(Syntax)
      else
        var v := prefix.value * 10 + (c - DIGIT_ZERO) as int;
        if v > MAX_UINT64 then Failure(Range) else Success(v)
  }

  /** strconv.ParseUint(s, 10, 64): value and error. */
  function ParseUint(s: GoString): (r: (nat, Option<NumError>))
    ensures r.1 == None ==> r.0 <= MAX_UINT64
    ensures r.1 == Some(Range) ==> r.0 == MAX_UINT64
    ensures r.1 == Some(Syntax) ==> r.0 == 0
  {
    if s == [] then (0, Some(Syntax))
    else
      match ScanDigits(s)
      case Success(v) => (v, None)
      case Failure(Syntax) => (0, Some(Syntax))
      case Failure(Range) => (MAX_UINT64, Some(Range))
  }

  /** strconv.ParseInt(s, 10, 64): an optional sign, then ParseUint's digits. */
  function ParseInt(s: GoString): (r: (int, Option<NumError>))
    ensures -INT64_CUTOFF <= r.0 <= MAX_INT64
    ensures r.1 == Some(Syntax) ==> r.0 == 0
    ensures r.1 == Some(Range) ==> s != [] && r.0 == (if s[0] == MINUS then -INT64_CUTOFF else MAX_INT64)
  {
    if s == [] then (0, Some(Syntax))
    else
      var neg := s[0] == MINUS;
      var digits := if s[0] == PLUS || s[0] == MINUS then s[1..] else s;
      var (un, err) := ParseUint(digits);
      if err == Some(Syntax) then (0, err)
      else if !neg && un >= INT64_CUTOFF then (INT64_CUTOFF - 1, Some(Range))
      else if neg && un > INT64_CUTOFF then (-INT64_CUTOFF, Some(Range))
      else
        var magnitude: int := un;
        (if neg then -magnitude else magnitude, None)
  }

  /** Scanning the decimal text of a number gives the number back. */
  lemma {:induction false} ScanDecimal(n: nat)
    requires n <= MAX_UINT64
    ensures ScanDigits(Decimal(n)) == Success(n)
  {
    var s := Decimal(n);
    if n >= 10 {
      ScanDecimal(n / 10);
      assert s[..|s| - 1] == Decimal(n / 10);
    }
  }

  /** Round trip: ParseInt reads back every size that Decimal prints. */
  lemma ParseDecimal(n: nat)
    requires n <= MAX_INT64
    ensures ParseInt(Decimal(n)) == (n, None)
  {
    ScanDecimal(n);
  }

  /** A decimal text holds no space, newline or sign. */
  lemma DecimalHasNoSeparator(n: nat)
    ensures SPACE !in Decimal(n) && NEWLINE !in Decimal(n) && MINUS !in Decimal(n) && PLUS !in Decimal(n)
  {
  }
}

=== FILE: streams.dfy ===
/**
 * The byte streams the transfers run over: the remote command's standard
 * input (a Writer whose far end may stop reading), its standard output
 * behind a bufio.Reader (a Reader over the bytes the far end sends), and the
 * local file. Also the io helpers the transfers call: io.ReadFull and
 * io.CopyN.
 */
module Streams {
  import opened Wrappers
  import opened GoStrings

  datatype IOError = EOF | UnexpectedEOF | ClosedPipe | CloseFailed

  /** The part of `s` that fits in `room` bytes. */
  function Take(s: seq<byte>, room: int): (r: seq<byte>)
    ensures r <= s
    ensures |r| == if room <= 0 then 0 else Min(|s|, room)
  {
    if room <= 0 then [] else s[..Min(|s|, room)]
  }

  /** Offering `a` and then `b` delivers what offering `a + b` at once would. */
  lemma TakeAppend(a: seq<byte>, b: seq<byte>, room: nat)
    ensures Take(a + b, room) == Take(a, room) + Take(b, room - |Take(a, room)|)
  {
    if |a| < room {
      assert (a + b)[..Min(|a + b|, room)] == a + b[..Min(|b|, room - |a|)];
    }
  }

  /**
   * Offering the chunk content[off..end] once content[..off] has been
   * delivered: all of it fits, or delivery stops at `room`.
   */
  lemma TakeChunk(content: seq<byte>, off: nat, end: nat, room: nat)
    requires off <= end <= |content| && off <= room
    ensures content[..off] + Take(content[off..end], room - off)
      == if end <= room then content[..end] else Take(content, room)
  {
    if end <= room {
      assert content[..off] + content[off..end] == content[..end];
    } else {
      assert content[off..end][..room - off] == content[off..room];
      assert content[..off] + content[off..room] == content[..room];
    }
  }

  /** What was delivered before, followed by a chunk's delivered part. */
  lemma AfterDelivered(start: seq<byte>, done: seq<byte>, part: seq<byte>)
    ensures start + done + part == start + (done + part)
  {
  }

  /**
   * bufio.Reader.ReadString(delim) on the bytes `s` still unread: up to and
   * including the first `delim`, or everything when there is none.
   */
  function LineOf(s: seq<byte>, delim: byte): (line: seq<byte>)
    ensures line <= s
    ensures delim in s ==> |line| > 0 && line[|line| - 1] == delim && delim !in line[..|line| - 1]
    ensures delim !in s ==> line == s
  {
    var i := Index(s, delim);
    if i < 0 then s else s[..i + 1]
  }

  /** A line ended by the first `delim` is read whole, whatever follows it. */
  lemma LineOfFirstLine(first: seq<byte>, delim: byte, rest: seq<byte>)
    requires delim !in first
    ensures LineOf(first + [delim] + rest, delim) == first + [delim]
  {
    var s := first + [delim] + rest;
    assert s[..|first|] == first;
    assert s[|first|] == delim;
    assert s[..|first| + 1] == first + [delim];
  }

  /** The writing end of a pipe to the remote command. */
  class Writer {
    /** How many bytes the far end reads before it stops. */
    const capacity: nat
    /** What Close reports. */
    const closeErr: Option<IOError>
    /** The bytes the far end has received. */
    var written: seq<byte>
    var closed: bool
    /**
     * The remote command's output that the same session reads from (null
     * when it is not read), and, for each write so far, how many of its
     * bytes had been consumed when the write was made.
     */
    ghost const peer: Reader?
    ghost var marks: seq<nat>

    ghost predicate Valid()
      reads this
    {
      |written| <= capacity
    }

    constructor (capacity: nat, closeErr: Option<IOError>, ghost peer: Reader?)
      ensures Valid() && this.capacity == capacity && this.closeErr == closeErr
      ensures written == [] && !closed && this.peer == peer && marks == []
    {
      this.capacity := capacity;
      this.closeErr := closeErr;
      written := [];
      closed := false;
      this.peer := peer;
      marks := [];
    }

    /**
     * The effect of one Write(p) that returned (n, err): a closed pipe takes
     * nothing; otherwise as much of `p` as the far end still reads is
     * delivered, and a short write reports an error.
     */
    twostate predicate Wrote(p: seq<byte>, n: nat, new err: Option<IOError>)
      reads this
    {
      && closed == old(closed)
      && if old(closed) then n == 0 && err == Some(ClosedPipe) && written == old(written)
         else
           && written == old(written) + Take(p, capacity - |old(written)|)
           && n == |written| - |old(written)|
           && err == (if n < |p| then Some(ClosedPipe) else None)
    }

    method Write(p: seq<byte>) returns (n: nat, err: Option<IOError>)
      requires Valid()
      modifies this
      ensures Valid() && Wrote(p, n, err)
      ensures marks == old(marks) + [if peer == null then 0 else peer.pos]
    {
      marks := marks + [if peer == null then 0 else peer.pos];
      if closed {
        return 0, Some(ClosedPipe);
      }
      var chunk := Take(p, capacity - |written|);
      written := written + chunk;
      n := |chunk|;
      err := if n < |p| then Some(ClosedPipe) else None;
    }

    method Close() returns (err: Option<IOError>)
      modifies this
      ensures closed && written == old(written) && marks == old(marks) && err == closeErr
    {
      closed := true;
      err := closeErr;
    }
  }

  /** The reading end of the remote command's output, behind a bufio.Reader. */
  class Reader {
    /** Every byte the far end sends before it closes its output. */
    const data: seq<byte>
    /** What Close reports. */
    const closeErr: Option<IOError>
    /** How many bytes have been consumed. */
    var pos: nat
    var closed: bool

    ghost predicate Valid()
      reads this
    {
      pos <= |data|
    }

    /** The bytes not yet consumed. */
    function Unread(): seq<byte>
      reads this
      requires Valid()
    {
      data[pos..]
    }

    constructor (data: seq<byte>, closeErr: Option<IOError>)
      ensures Valid() && this.data == data && this.closeErr == closeErr && pos == 0 && !closed
    {
      this.data := data;
      this.closeErr := closeErr;
      pos := 0;
      closed := false;
    }

    /**
     * The effect of one Read(p[lo:hi]) that returned (n, err): the next
     * bytes, as many as fit, land in p[lo:lo+n] and nothing else in `p`
     * changes; a read that finds nothing left reports EOF.
     */
    twostate predicate ReadInto(p: array<byte>, lo: nat, hi: nat, n: nat, new err: Option<IOError>)
      reads this, p
      requires old(Valid()) && Valid() && lo <= hi <= p.Length
    {
      && closed == old(closed)
      && n == Min(hi - lo, |old(Unread())|)
      && pos == old(pos) + n
      && p[lo..lo + n] == old(Unread())[..n]
      && p[..lo] == old(p[..lo]) && p[lo + n..] == old(p[lo + n..])
      && err == (if n == 0 && lo < hi then Some(EOF) else None)
    }

    /** Read(p[lo:hi]). */
    method Read(p: array<byte>, lo: nat, hi: nat) returns (n: nat, err: Option<IOError>)
      requires Valid() && lo <= hi <= p.Length
      modifies this, p
      ensures Valid() && ReadInto(p, lo, hi, n, err)
    {
      n := Min(hi - lo, |data| - pos);
      forall i | lo <= i < lo + n {
        p[i] := data[pos + i - lo];
      }
      pos := pos + n;
      err := if n == 0 && lo < hi then Some(EOF) else None;
    }

    /** ReadString(delim): the bytes up to and including the next `delim`. */
    method ReadString(delim: byte) returns (line: seq<byte>, err: Option<IOError>)
      requires Valid()
      modifies this
      ensures Valid() && closed == old(closed)
      ensures line == LineOf(old(Unread()), delim)
      ensures pos == old(pos) + |line|
      ensures err == (if delim in old(Unread()) then None else Some(EOF))
    {
      var i := pos;
      while i < |data| && data[i] != delim
        invariant pos <= i <= |data|
        invariant delim !in data[pos..i]
      {
        i := i + 1;
      }
      ghost var rest := data[pos..];
      if i < |data| {
        assert data[pos..i + 1] == rest[..i - pos + 1];
        assert rest[i - pos] == delim && Index(rest, delim) == i - pos by {
          assert rest[..i - pos] == data[pos..i];
        }
        line, err := data[pos..i + 1], None;
        pos := i + 1;
      } else {
        assert rest == data[pos..i];
        line, err := data[pos..], Some(EOF);
        pos := |data|;
      }
    }

    method Close() returns (err: Option<IOError>)
      modifies this
      ensures closed && pos == old(pos) && err == closeErr
    {
      closed := true;
      err := closeErr;
    }
  }

  /** The local file a pull creates and fills. */
  class LocalFile {
    var content: seq<byte>

    constructor (content: seq<byte>)
      ensures this.content == content
    {
      this.content := content;
    }

    /** os.Create: the file now exists and is empty. */
    method Create()
      modifies this
      ensures content == []
    {
      content := [];
    }

    method Write(p: seq<byte>)
      modifies this
      ensures content == old(content) + p
    {
      content := content + p;
    }
  }

  /**
   * io.ReadFull(r, buf): keep reading until `buf` is full or the stream
   * ends; ending early is UnexpectedEOF, or EOF when nothing was read.
   */
  method ReadFull(r: Reader, buf: array<byte>) returns (n: nat, err: Option<IOError>)
    requires r.Valid()
    modifies r, buf
    ensures r.Valid() && r.closed == old(r.closed)
    ensures n == Min(buf.Length, |old(r.Unread())|)
    ensures buf[..n] == old(r.Unread())[..n]
    ensures r.pos == old(r.pos) + n
    ensures err == if n == buf.Length then None else if n == 0 then Some(EOF) else Some(UnexpectedEOF)
  {
    ghost var unread := r.Unread();
    n, err := 0, None;
    while n < buf.Length && err == None
      invariant r.Valid() && r.closed == old(r.closed)
      invariant n <= buf.Length && n <= |unread|
      invariant r.pos == old(r.pos) + n && r.Unread() == unread[n..]
      invariant buf[..n] == unread[..n]
      invariant err != None ==> err == Some(EOF) && n == |unread|
      decreases buf.Length - n, if err == None then 1 else 0
    {
      var m, e := r.Read(buf, n, buf.Length);
      assert buf[..n + m] == buf[..n] + buf[n..n + m];
      n, err := n + m, e;
    }
    if n >= buf.Length {
      err := None;
    } else if n > 0 && err == Some(EOF) {
      err := Some(UnexpectedEOF);
    }
  }

  /** io.Copy's buffer size. */
  const COPY_BUFFER: nat := 32 * 1024

  /** The first `k + m` bytes are the first `k` followed by the next `m`. */
  lemma PrefixExtends(s: seq<byte>, k: nat, m: nat)
    requires k + m <= |s|
    ensures s[..k + m] == s[..k] + s[k..][..m]
  {
    assert s[..k + m] == s[..k] + s[k..k + m];
  }

  /**
   * io.CopyN(dst, src, limit): copy up to `limit` bytes, a buffer at a time,
   * into the file; copying fewer than `limit` is an EOF error. A limit of
   * zero or less copies nothing and is not an error.
   */
  method CopyN(dst: LocalFile, src: Reader, limit: int) returns (copied: nat, err: Option<IOError>)
    requires src.Valid()
    modifies dst, src
    ensures src.Valid() && src.closed == old(src.closed)
    ensures copied == Max(0, Min(limit, |old(src.Unread())|))
    ensures dst.content == old(dst.content) + old(src.Unread())[..copied]
    ensures src.pos == old(src.pos) + copied
    ensures err == if copied < limit then Some(EOF) else None
  {
    ghost var unread := src.Unread();
    var buf := new byte[COPY_BUFFER];
    copied := 0;
    while copied < limit
      invariant src.Valid() && src.closed == old(src.closed)
      invariant copied <= |unread| && (copied <= limit || copied == 0)
      invariant src.pos == old(src.pos) + copied && src.Unread() == unread[copied..]
      invariant dst.content == old(dst.content) + unread[..copied]
      decreases limit - copied
    {
      var m, e := src.Read(buf, 0, Min(COPY_BUFFER, limit - copied));
      if m > 0 {
        dst.Write(buf[..m]);
        PrefixExtends(unread, copied, m);
        copied := copied + m;
      }
      if e != None {
        break;
      }
    }
    err := if copied < limit then Some(EOF) else None;
  }
}

=== FILE: variants.dfy ===
/**
 * How the two programs' pulls compare on the same remote output. They send
 * the same acknowledgements and consume the same bytes whenever the control
 * line carries a positive size; they part ways on a zero or negative size,
 * which the cmd program accepts as an empty file and the root program
 * panics on, and on a short read, after which only the cmd program leaves
 * the partial bytes in the local file.
 */
module Variants {
  import opened GoStrings
  import opened Scp
  import CmdGoscp
  import RootGoscp

  /** Whatever the root program receives, the cmd program receives identically. */
  lemma RootReceivedCmdAgrees(input: seq<byte>)
    requires RootGoscp.Pull(input).status == Received
    ensures CmdGoscp.Pull(input) == RootGoscp.Pull(input)
  {
  }

  /** A file the cmd program receives is lost by the root program only when it is empty. */
  lemma CmdReceivedRootDiffersOnlyWhenEmpty(input: seq<byte>)
    requires CmdGoscp.Pull(input).status == Received
    ensures RootGoscp.Pull(input).status == Received || CmdGoscp.Pull(input).file == []
    ensures RootGoscp.Pull(input).status != Received ==> RootGoscp.Pull(input).status == Crashed
  {
  }

  /** Both programs turn away the same first lines, identically. */
  lemma RefusalsAgree(input: seq<byte>)
    ensures CmdGoscp.Pull(input).status == NoControlRecord
        <==> RootGoscp.Pull(input).status == NoControlRecord
    ensures CmdGoscp.Pull(input).status == NoControlRecord ==> CmdGoscp.Pull(input) == RootGoscp.Pull(input)
  {
  }

  /**
   * Both programs detect the same short reads and answer them alike; the
   * root program's file stays empty where the cmd program's holds what
   * arrived.
   */
  lemma ShortReadsAgree(input: seq<byte>)
    ensures CmdGoscp.Pull(input).status == ShortRead <==> RootGoscp.Pull(input).status == ShortRead
    ensures CmdGoscp.Pull(input).status == ShortRead ==>
      CmdGoscp.Pull(input) == RootGoscp.Pull(input).(file := CmdGoscp.Pull(input).file)
  {
  }
}

=== FILE: wrappers.dfy ===
/** Small shared helpers: optional values, results and integer bounds. */
module Wrappers {
  datatype Option<+T> = None | Some(value: T)

  datatype Result<+T, +E> = Success(value: T) | Failure(error: E)

  function Min(a: int, b: int): int { if a <= b then a else b }

  function Max(a: int, b: int): int { if a >= b then a else b }
}
